=== FILE: README.md ===
# speckit-ralph project state, in Dafny

A model of the project-state logic of the `ralph` command-line tool
(`src/speckit_ralph/cli.py`), the part that is not terminal styling or
process plumbing:

- `init` creates `.ralph/` and `.ralph/runs/` and fills in the three state
  files (guardrail ledger `guardrails.md`, `activity.log`, `errors.log`)
  from bundled templates, never overwriting anything (`setup.dfy`);
- `add-sign` resolves a sign's four fields from options or prompts and
  appends its fixed Markdown block to the ledger (`guardrails.dfy`);
- `show-activity`, `show-errors` and `show-guardrails` are read-only
  views, the first two cutting the log to its last `n` lines
  (`views.dfy`, with line splitting and joining in `text.dfy`);
- `run_script` and the environment and arguments `once` and `loop` hand
  to it (`launch.dfy`, with Python's `str` of an integer in `decimal.dfy`);
- how these commands interact over one project (`lifecycle.dfy`).

The filesystem is a value: a map from path (a list of components) to file
text plus a set of directories (`store.dfy`). The commands that touch
project files (`init`, `add-sign` and the three views) are pure functions
from the state before to a `Reply` holding the state after and either a
value (exit 0) or an error (exit 1). `once` and `loop` touch no project
file: they give back a `Run`, either the missing script (return code 1) or
the command line and environment the child got and the child's return
code, and the process exit status follows from that code. The bundled templates are a
map from template name to text, the bundled scripts a set of names, the
inherited environment a map, the working directory a parameter, the
interactive prompt a function from field to the line typed, and the child
process a function from command line and environment to a return code.

The model follows the code where it departs from what its help texts suggest:

- The tail view keeps the last `n` lines only for `n >= 1`. The slice
  `content_lines[-lines:]` shows every line for `n == 0` and drops the
  first `-n` lines for negative `n` (`Views.TailViewNonPositive`), so "at
  most `n` lines" holds only for positive `n`.
- A missing template is not an error: `init` skips that file and goes on.
- The agent name is not checked against a closed set, and the iteration
  count is passed on without any positivity check.
- `init` can fail: when a regular file sits where `.ralph` or
  `.ralph/runs` (or a parent) has to be, `mkdir` raises and the command
  exits with 1.
- A state file path that exists but is a directory passes the existence
  check, then reading or appending fails (exit 1).

## Model

| member | source | states |
|---|---|---|
| FileStore.GetRalphDir | src/speckit_ralph/cli.py:34-38 | the state directory is the given root, or the working directory when none is given, extended by `.ralph`; the root can be read back from it |
| FileStore.MakeDirs | src/speckit_ralph/cli.py:146-147 | `mkdir(parents=True, exist_ok=True)` fails exactly when a regular file occupies the path or one of its ancestors, changing nothing; otherwise the path and all its parents are directories and no file changes |
| FileStore.MakeDirsExists | src/speckit_ralph/cli.py:146-147 | `exists()` holds for a file or a directory alike; after `mkdir` the path exists and existence only grows |
| FileStore.UniversalNewlines | src/speckit_ralph/cli.py:233 | text read in universal-newline mode holds no carriage return, is never longer than the stored text, and is the stored text itself when that has no carriage return |
| FileStore.CrLfReadsAsNewline | src/speckit_ralph/cli.py:233 | a stored `\r\n` reads as one newline |
| FileStore.CrReadsAsNewline | src/speckit_ralph/cli.py:233 | a stored lone `\r` reads as one newline |
| FileStore.ReadText | src/speckit_ralph/cli.py:233 | reading an existing path yields the file's text with `\r\n` and `\r` turned into newlines, and fails on a directory; reading never changes the state |
| Setup.CopyTemplates | src/speckit_ralph/cli.py:149-163 | the copy loop never changes an existing file or a directory, creates only targets whose copy condition held, gives each its template's text, and its created list equals the targets creatable in the state before the loop (one copy never affects another's check) |
| Setup.CreatableAgree | src/speckit_ralph/cli.py:157-163 | which targets get created depends only on the per-target copy conditions |
| Setup.Init | src/speckit_ralph/cli.py:133-170 | fails (exit 1) exactly when a file blocks `.ralph` or `.ralph/runs`, with files untouched; otherwise both directories exist, no existing file changes, a state file is created from its template iff nothing was at its path and the template exists, only those files are new, and `created` lists them in the order guardrails, activity log, error log without repeats |
| Setup.InitLeavesDirectories | src/speckit_ralph/cli.py:146-147 | after a successful `init` both directories and their parents exist and nothing blocks them |
| Setup.InitProvidesStateFiles | src/speckit_ralph/cli.py:157-163 | after a successful `init` every state file whose template is bundled exists |
| Setup.InitOnInitialised | src/speckit_ralph/cli.py:157-170 | on a state that already has the directories and every state file with a template, `init` changes nothing and reports an empty created list |
| Setup.InitIdempotent | src/speckit_ralph/cli.py:146-170 | a second `init` succeeds, leaves every file and directory as the first left them, and reports nothing created, which selects the "already exists" message |
| Text.TakeLine | src/speckit_ralph/cli.py:234 | cutting at the first newline splits text into a newline-free line, the newline, and the rest; it finds nothing exactly when the text has no newline |
| Text.SplitLines | src/speckit_ralph/cli.py:234 | the split lines hold no newline, and there are none exactly for empty text |
| Text.Join | src/speckit_ralph/cli.py:238 | joining single lines with newlines puts exactly one newline between neighbours and none elsewhere |
| Text.JoinAt | src/speckit_ralph/cli.py:238 | joined lines cut at any inner line boundary are the two joins around one newline |
| Text.JoinTail | src/speckit_ralph/cli.py:234-238 | the join of a text's lines from any line on is a tail of the text, less a final newline |
| Text.JoinSplitLines | src/speckit_ralph/cli.py:234-238 | joining the split lines with newlines restores the text, except that a final newline is lost |
| Text.SplitLinesOfJoin | src/speckit_ralph/cli.py:234-238 | splitting joined newline-free lines gives the same lines back when the last one is not empty |
| Views.LastLines | src/speckit_ralph/cli.py:237 | Python's `lines[-n:]` is a suffix of the lines: `min(L, n)` of them for positive `n`, all of them for `n == 0`, all but the first `-n` for negative `n` |
| Views.TailView | src/speckit_ralph/cli.py:233-238 | the view is always a tail of the log (less a final newline), and a cut to a positive `n` holds exactly `n` lines |
| Views.TailViewWindow | src/speckit_ralph/cli.py:233-238 | for `n >= 1` the view is the content unchanged when it has at most `n` lines, and otherwise the last `n` lines in their original order joined by newlines |
| Views.TailViewReread | src/speckit_ralph/cli.py:233-238 | for `n >= 1` reading the view's lines gives exactly the last `min(L, n)` lines of the log, in order |
| Views.TailViewNonPositive | src/speckit_ralph/cli.py:236-237 | for `n == 0` a non-empty log is shown in full; for negative `n` the first `-n` lines are dropped |
| Views.TailViewExample | src/speckit_ralph/cli.py:236-238 | a 50-line view of a 120-line log shows lines 71 to 120 |
| Views.ShowLog | src/speckit_ralph/cli.py:226-238 | the shared log view never writes; it fails with "not initialised" exactly when nothing is at the log's path, succeeds exactly when a file is there, and then shows the tail view of the text as read |
| Views.ShowActivity | src/speckit_ralph/cli.py:217-240 | `show-activity` never writes; exit 1 with "not initialised" and no change exactly when `activity.log` is absent; exit 0 exactly when it is a file, showing the tail view of its text as read |
| Views.ShowErrors | src/speckit_ralph/cli.py:243-266 | the same contract as `show-activity` for `errors.log` |
| Views.ShowGuardrails | src/speckit_ralph/cli.py:269-285 | `show-guardrails` never writes; exit 1 with "not initialised" exactly when the ledger is absent; otherwise shows the whole ledger as read, no tail cut |
| Guardrails.Render | src/speckit_ralph/cli.py:203-208 | a sign block starts with a blank line, ends with a newline, and is five lines when no field holds a newline |
| Guardrails.RenderText | src/speckit_ralph/cli.py:203-208 | the sign block is byte for byte a blank line, `### Sign: <name>`, then the Trigger, Instruction and Added after bullets, each line newline-terminated |
| Guardrails.ReadField | src/speckit_ralph/cli.py:204-207 | a field read off a block line is newline-free and, with its tag and newline, is exactly the text consumed |
| Guardrails.ParseSign | src/speckit_ralph/cli.py:203-208 | whatever a reader of the heading-and-bullet shape accepts is exactly a rendered block of one-line fields followed by the unread rest |
| Guardrails.ParseSigns | src/speckit_ralph/cli.py:203-212 | text read as a run of sign blocks is exactly the concatenation of those blocks |
| Guardrails.ParseRender | src/speckit_ralph/cli.py:203-208 | a rendered block reads back as its sign, whatever follows it, when no field holds a newline |
| Guardrails.ParseRenderAll | src/speckit_ralph/cli.py:203-212 | consecutive rendered blocks read back as the signs, in order |
| Text.Strip | src/speckit_ralph/cli.py:193-200 | the answer the prompt returns is the typed line without surrounding whitespace: it neither starts nor ends with whitespace, is empty exactly for a blank line, and is the line itself when it has no surrounding whitespace |
| Text.StripPadding | src/speckit_ralph/cli.py:193-200 | stripping removes exactly the whitespace around a trimmed answer |
| Guardrails.Answer | src/speckit_ralph/cli.py:193-200 | an entirely empty line at the reason prompt gives "Manual addition"; every other answer is stripped, so no answer begins or ends with whitespace, a blank line gives the empty string, and a line without surrounding whitespace is kept as typed |
| Guardrails.AnswerIgnoresPadding | src/speckit_ralph/cli.py:193-200 | whitespace typed around an answer is dropped at every prompt |
| Guardrails.Asked | src/speckit_ralph/cli.py:193-200 | a prompt is asked exactly for each missing option, in the order name, trigger, instruction, reason, none twice |
| Guardrails.Resolve | src/speckit_ralph/cli.py:192-200 | a field is prompted for exactly when its option is missing, prompts come in the order name, trigger, instruction, reason with none repeated, a given option is used verbatim and a missing one takes the prompt's answer |
| Guardrails.ResolveAllGiven | src/speckit_ralph/cli.py:193-200 | with all four options given nothing is asked and the sign is exactly the options |
| Guardrails.AddSign | src/speckit_ralph/cli.py:173-214 | exit 1 with "not initialised", no prompt and no change exactly when the ledger is absent; on success the old ledger is an untouched prefix of the new one, what follows is exactly the rendered block of the resolved sign, the ledger strictly grows, and no other file or directory changes |
| Guardrails.AddSigns | src/speckit_ralph/cli.py:188-212 | a run of additions succeeds exactly when it is empty or the ledger is a file; a failed run fails at its first command and changes nothing; a successful run keeps every directory and creates no file |
| Guardrails.AddSignsAppendOnly | src/speckit_ralph/cli.py:210-212 | any run of additions to an existing ledger succeeds, keeps every other file, and extends the old ledger by exactly the signs' blocks in order |
| Guardrails.AddSignsReadBack | src/speckit_ralph/cli.py:203-212 | what a run of additions appends reads back as the added signs in order |
| Decimal.NatToString | src/speckit_ralph/cli.py:95 | `str` of a non-negative integer is a non-empty string of digits with no leading zero |
| Decimal.IntToString | src/speckit_ralph/cli.py:95 | `str` of an integer starts with a minus sign exactly for negative numbers, followed by digits |
| Decimal.DigitsOfNat | src/speckit_ralph/cli.py:95 | the digits `str` prints denote the number printed |
| Decimal.ParseIntToString | src/speckit_ralph/cli.py:95-105 | the printed iteration count or sleep reads back as the same integer |
| Decimal.IntToStringInjective | src/speckit_ralph/cli.py:95-105 | different integers print differently |
| Launch.Overlay | src/speckit_ralph/cli.py:63-65 | the child environment has the inherited keys and the supplied ones; supplied entries win, other inherited entries are kept |
| Launch.RunScript | src/speckit_ralph/cli.py:51-68 | a missing script gives return code 1 and runs nothing; otherwise the command is `bash`, the script path, then the arguments (none when absent), the environment is the inherited one overridden by the supplied one, and the child's return code comes back unchanged |
| Launch.ExitStatus | src/speckit_ralph/cli.py:82 | the process exit status of `sys.exit(code)` is the code modulo 256, so codes 0 to 255 pass through unchanged and a child killed by signal N exits with 256 - N |
| Launch.OnceExit | src/speckit_ralph/cli.py:72-82 | `once` exits with 1 when its script is missing, otherwise with the code of the child started with the `once` command line and environment (256 - N after signal N) |
| Launch.OnceEnv | src/speckit_ralph/cli.py:78-80 | `once` always supplies the promise and the agent, and supplies `RALPH_ARTIFACT_DIR = /tmp/ralph-<agent>-debug` exactly when artifacts are kept, nothing else |
| Launch.Once | src/speckit_ralph/cli.py:71-82 | `once` runs `bash <ralph-once.sh>` with no arguments over exactly the inherited variables plus the ones `once` supplies: the promise and agent set, the artifact directory present iff kept or inherited, every inherited variable `once` does not supply (an inherited artifact directory included) passed on unchanged, and the child's code passed through |
| Launch.LoopArgs | src/speckit_ralph/cli.py:95-99 | the loop arguments are the iteration count, `--agent`, the agent, then `--detach` iff detaching, then `--sleep` and the seconds iff a sleep is set |
| Launch.LoopEnv | src/speckit_ralph/cli.py:101-105 | `loop` supplies promise and agent, `RALPH_ARTIFACT_DIR = /tmp/ralph-<agent>-loop` iff artifacts are kept, `RALPH_SLEEP_SECONDS` iff a sleep is set, nothing else |
| Launch.Loop | src/speckit_ralph/cli.py:85-107 | `loop` runs `bash <ralph-loop.sh>` followed by the loop arguments over exactly the inherited variables plus the ones `loop` supplies: the promise and agent set, the artifact directory and sleep seconds present iff supplied or inherited, every inherited variable `loop` does not supply passed on unchanged, and the child's code passed through |
| Launch.LoopExit | src/speckit_ralph/cli.py:86-107 | `loop` exits with 1 when its script is missing, otherwise with the code of the child started with the loop command line and environment (256 - N after signal N) |
| Launch.ParseLoopArgsRoundTrip | src/speckit_ralph/cli.py:95-99 | the loop arguments determine iterations, agent, detach and sleep unambiguously |
| Lifecycle.CommandsNeedInit | src/speckit_ralph/cli.py:188-282 | before the state files exist, the four existence guards (`add-sign` at lines 188-190, `show-activity` at 229-231, `show-errors` at 255-257, `show-guardrails` at 280-282) all fail with "not initialised" and leave the filesystem unchanged |
| Lifecycle.InitEnablesCommands | src/speckit_ralph/cli.py:157-163 | after a successful `init` with all templates bundled, no command that needs a state file reports that `init` is missing |
| Lifecycle.ReinitKeepsSigns | src/speckit_ralph/cli.py:161-162 | re-running `init` after an addition keeps the grown ledger byte for byte |

## Left out

- The loop controller itself (iteration counting, early stop on the promise, sleeping, detaching, writing the activity and error logs) lives in the bundled `ralph-loop.sh` and `ralph-once.sh`, which are not part of this model; `loop` and `once` are modelled up to the command they start.
- `build_prompt` and `scripts_path` only forward to a script or print a path; they hold no logic of their own.
- Console output, Markdown rendering and colours are not modelled; a reply keeps only the branch taken (value or error) and the exit code.
- Typer argument parsing is not modelled: option values are parameters, and of the defaults only the 50-line window appears (`DefaultLines`); the agent `claude` and the promise `COMPLETE` are simply values a caller may pass.
- The interactive prompt is an oracle that always supplies a line for each field; terminal I/O is not modelled. End of input or Ctrl-C at a prompt, which makes the command-line layer abort with exit 1 and append nothing, is not modelled, so `Guardrails.AddSign`'s "exit 0 exactly when the ledger is a file" assumes every prompt is answered.
- Python's `splitlines` also breaks at `\v`, `\f`, `\x1c`-`\x1e`, `\x85`, `\u2028` and `\u2029`; the model splits at `\n` only (`\r\n` and `\r` never reach it, since reading turns them into `\n`). UTF-8 encoding and decoding is not modelled: file contents are strings.
- Writing in text mode is modelled as writing the text unchanged, which is what happens on POSIX; the translation of `\n` to `os.linesep` on other platforms is not modelled.
- Paths are lists of components taken as given: `.` and `..` are not resolved and a relative `--root` is not made absolute, so `--root .` and no root at all are different paths in the model while they name the same directory on disk.
- Python's `str.strip()` whitespace set is modelled character by character (`Text.IsSpace`); the prompt's other behaviour (markup, password mode, re-asking on invalid input, which never happens for plain strings) is not.
- Subprocess execution, `os.environ`, `Path.cwd()`, `shutil.copy` and `mkdir` are not modelled beyond their effect on the abstract state; the child process is an uninterpreted function.
- The bundled templates directory is modelled as a map separate from the project tree, so a project that overlaps the package directory is not covered; symbolic links, permissions and I/O errors other than the ones named above are not modelled.
- Concurrent invocations against one project are not modelled; each command runs alone.
- Guardrails.AddSign: when the ledger path is a directory, the prompts asked before the append fails are not recorded in the failed reply.
- Views.TailViewReread: stated only for logs whose last line is not empty, because joining lines ending in an empty line leaves a trailing newline that a second split drops.
- Launch.ExitStatus: integers beyond the C `long` range make the interpreter report an OverflowError and exit with 255, where the model gives `code % 256`; a child's return code never reaches that range.

=== FILE: decimal.dfy ===
/**
  Python's `str(n)` for integers, as used for the iteration count and the
  sleep seconds, and a reader of the same notation that undoes it.
 */
module Decimal {
  import opened Optional

  predicate IsDigit(c: char)
  {
    '0' <= c <= '9'
  }

  predicate AllDigits(s: string)
  {
    forall i | 0 <= i < |s| :: IsDigit(s[i])
  }

  function DigitChar(d: nat): (c: char)
    requires d < 10
    ensures IsDigit(c) && c as int - '0' as int == d
  {
    (d + '0' as int) as char
  }

  /** `str(n)` for a non-negative `n`: decimal digits, no leading zero unless `n` is zero. */
  function NatToString(n: nat): (s: string)
    ensures |s| > 0 && AllDigits(s)
    ensures s[0] == '0' ==> s == "0"
    decreases n
  {
    if n < 10 then [DigitChar(n)] else NatToString(n / 10) + [DigitChar(n % 10)]
  }

  /** `str(i)`: a minus sign before the digits of a negative number. */
  function IntToString(i: int): (s: string)
    ensures |s| > 0
    ensures s[0] == '-' <==> i < 0
    ensures i >= 0 ==> AllDigits(s)
    ensures i < 0 ==> AllDigits(s[1..]) && |s| > 1
  {
    if i < 0 then "-" + NatToString(-i) else NatToString(i)
  }

  /** The value of a string of decimal digits. */
  function DigitsValue(s: string): nat
    requires AllDigits(s)
    decreases |s|
  {
    if |s| == 0 then 0 else DigitsValue(s[..|s| - 1]) * 10 + (s[|s| - 1] as int - '0' as int)
  }

  /** Reads an optional minus sign followed by at least one digit; None for anything else. */
  function ParseInt(s: string): Option<int>
  {
    if |s| > 1 && s[0] == '-' && AllDigits(s[1..]) then Some(-(DigitsValue(s[1..]) as int))
    else if |s| > 0 && AllDigits(s) then Some(DigitsValue(s))
    else None
  }

  lemma {:induction false} DigitsOfNat(n: nat)
    ensures DigitsValue(NatToString(n)) == n
    decreases n
  {
    var s := NatToString(n);
    if n >= 10 {
      DigitsOfNat(n / 10);
      assert s[..|s| - 1] == NatToString(n / 10);
    }
  }

  /** Reading back what `str` printed gives the number again. */
  lemma ParseIntToString(i: int)
    ensures ParseInt(IntToString(i)) == Some(i)
  {
    if i < 0 {
      DigitsOfNat(-i);
      assert IntToString(i)[1..] == NatToString(-i);
    } else {
      DigitsOfNat(i);
    }
  }

  /** Different numbers print differently. */
  lemma IntToStringInjective(i: int, j: int)
    requires IntToString(i) == IntToString(j)
    ensures i == j
  {
    ParseIntToString(i);
    ParseIntToString(j);
  }
}

=== FILE: guardrails.dfy ===
/**
  The guardrail ledger: signs, the fixed Markdown block a sign is rendered
  to, the resolution of sign fields from options or prompts, and the
  `add-sign` command, which only ever appends to `guardrails.md`.
 */
module Guardrails {
  import opened Optional
  import opened FileStore
  import opened Text

  datatype Sign = Sign(name: string, trigger: string, instruction: string, reason: string)

  /** The reason the `reason` prompt offers when the user enters nothing. */
  const DefaultReason: string := "Manual addition"

  const HeadingTag: string := "### Sign: "
  const TriggerTag: string := "- **Trigger**: "
  const InstructionTag: string := "- **Instruction**: "
  const AddedAfterTag: string := "- **Added after**: "

  /** One newline-terminated line of a block: its tag, then the value. */
  function Line(tag: string, value: string): string
  {
    tag + value + "\n"
  }

  /**
    The block appended for `s`: a blank line, the heading, then the three
    bullets, each line newline-terminated.
   */
  function Render(s: Sign): (block: string)
    ensures |block| > 1 && block[0] == '\n' && block[|block| - 1] == '\n'
    ensures OneLineFields(s) ==> Newlines(block) == 5
  {
    var a := Line(HeadingTag, s.name);
    var b := Line(TriggerTag, s.trigger);
    var c := Line(InstructionTag, s.instruction);
    var d := Line(AddedAfterTag, s.reason);
    TagsOneLine();
    LineCount(HeadingTag, s.name);
    LineCount(TriggerTag, s.trigger);
    LineCount(InstructionTag, s.instruction);
    LineCount(AddedAfterTag, s.reason);
    BlockCount(a, b, c, d);
    "\n" + a + b + c + d
  }

  /** No tag holds a newline. */
  lemma TagsOneLine()
    ensures OneLine(HeadingTag) && OneLine(TriggerTag) && OneLine(InstructionTag) && OneLine(AddedAfterTag)
  {
  }

  /** The newlines of a block are its leading blank line plus those of its four lines. */
  lemma BlockCount(a: string, b: string, c: string, d: string)
    ensures Newlines("\n" + a + b + c + d) == 1 + Newlines(a) + Newlines(b) + Newlines(c) + Newlines(d)
  {
    NewlinesAppend("\n", a);
    NewlinesAppend("\n" + a, b);
    NewlinesAppend("\n" + a + b, c);
    NewlinesAppend("\n" + a + b + c, d);
    assert Newlines("\n") == 1;
  }

  /** A line of a block holds one newline, its terminator, when its value is a single line. */
  lemma LineCount(tag: string, value: string)
    requires OneLine(tag)
    ensures OneLine(value) ==> Newlines(Line(tag, value)) == 1
  {
    NewlinesAppend(tag, value);
    NewlinesAppend(tag + value, "\n");
    NewlinesOneLine(tag);
    NewlinesOneLine(value);
    assert Newlines("\n") == 1;
  }

  /** The block is byte for byte the interpolated template of the ledger format. */
  lemma RenderText(s: Sign)
    ensures Render(s) == "\n### Sign: " + s.name + "\n- **Trigger**: " + s.trigger + "\n- **Instruction**: "
                         + s.instruction + "\n- **Added after**: " + s.reason + "\n"
  {
    assert "\n### Sign: " == "\n" + HeadingTag;
    assert "\n- **Trigger**: " == "\n" + TriggerTag;
    assert "\n- **Instruction**: " == "\n" + InstructionTag;
    assert "\n- **Added after**: " == "\n" + AddedAfterTag;
    Regroup(HeadingTag, TriggerTag, InstructionTag, AddedAfterTag,
            s.name, s.trigger, s.instruction, s.reason);
  }

  /** The interpolated form of a block and its line-by-line form are the same text. */
  lemma Regroup(h: string, t: string, i: string, a: string,
                name: string, trigger: string, instruction: string, reason: string)
    ensures ("\n" + h) + name + ("\n" + t) + trigger + ("\n" + i) + instruction + ("\n" + a) + reason + "\n"
         == "\n" + Line(h, name) + Line(t, trigger) + Line(i, instruction) + Line(a, reason)
  {
    var q1 := "\n" + Line(h, name);
    assert ("\n" + h) + name + ("\n" + t) == q1 + t;
    var q2 := q1 + Line(t, trigger);
    assert q1 + t + trigger + ("\n" + i) == q2 + i;
    var q3 := q2 + Line(i, instruction);
    assert q2 + i + instruction + ("\n" + a) == q3 + a;
    assert q3 + a + reason + "\n" == q3 + Line(a, reason);
  }

  /** The blocks of `signs`, one after the other. */
  function RenderAll(signs: seq<Sign>): string
  {
    if |signs| == 0 then "" else Render(signs[0]) + RenderAll(signs[1..])
  }

  /** Every field of `s` fits on one line. */
  predicate OneLineFields(s: Sign)
  {
    OneLine(s.name) && OneLine(s.trigger) && OneLine(s.instruction) && OneLine(s.reason)
  }

  lemma Assoc(a: string, b: string, c: string)
    ensures (a + b) + c == a + (b + c)
  {
  }

  /** A rendered block followed by `rest`, regrouped line by line. */
  lemma RenderThen(s: Sign, rest: string)
    ensures Render(s) + rest
      == "\n" + (Line(HeadingTag, s.name) + (Line(TriggerTag, s.trigger)
         + (Line(InstructionTag, s.instruction) + (Line(AddedAfterTag, s.reason) + rest))))
  {
    var l1, l2, l3, l4 := Line(HeadingTag, s.name), Line(TriggerTag, s.trigger),
                          Line(InstructionTag, s.instruction), Line(AddedAfterTag, s.reason);
    assert Render(s) == "\n" + l1 + l2 + l3 + l4;
    Assoc("\n" + l1 + l2 + l3, l4, rest);
    Assoc("\n" + l1 + l2, l3, l4 + rest);
    Assoc("\n" + l1, l2, l3 + (l4 + rest));
    Assoc("\n", l1, l2 + (l3 + (l4 + rest)));
  }

  function StripPrefix(prefix: string, s: string): (r: Option<string>)
    ensures r.Some? <==> |prefix| <= |s| && s[..|prefix|] == prefix
    ensures r.Some? ==> s == prefix + r.value
  {
    if |prefix| <= |s| && s[..|prefix|] == prefix then Some(s[|prefix|..]) else None
  }

  /** The value after `tag` up to the next newline, and the text after that newline. */
  function ReadField(tag: string, s: string): (r: Option<(string, string)>)
    ensures r.Some? ==> OneLine(r.value.0) && s == Line(tag, r.value.0) + r.value.1
  {
    match StripPrefix(tag, s)
    case None => None
    case Some(t) =>
      match TakeLine(t)
      case None => None
      case Some((value, rest)) =>
        Assoc(tag + value, "\n", rest);
        Assoc(tag, value, "\n" + rest);
        Some((value, rest))
  }

  /**
    Reads one sign block off the front of `s`, the way a consumer of the
    ledger reads the heading and bullet shape; what it reads back is exactly
    a rendered block followed by the unread rest.
   */
  function ParseSign(s: string): (r: Option<(Sign, string)>)
    ensures r.Some? ==> OneLineFields(r.value.0) && s == Render(r.value.0) + r.value.1
  {
    match StripPrefix("\n", s)
    case None => None
    case Some(s0) =>
      match ReadField(HeadingTag, s0)
      case None => None
      case Some((name, s1)) =>
        match ReadField(TriggerTag, s1)
        case None => None
        case Some((trigger, s2)) =>
          match ReadField(InstructionTag, s2)
          case None => None
          case Some((instruction, s3)) =>
            match ReadField(AddedAfterTag, s3)
            case None => None
            case Some((reason, rest)) =>
              var sign := Sign(name, trigger, instruction, reason);
              RenderThen(sign, rest);
              Some((sign, rest))
  }

  /** Reads consecutive sign blocks until the text is used up; None if anything else is found. */
  function ParseSigns(s: string): (r: Option<seq<Sign>>)
    ensures r.Some? ==> RenderAll(r.value) == s
    decreases |s|
  {
    if |s| == 0 then Some([])
    else
      match ParseSign(s)
      case None => None
      case Some((sign, rest)) =>
        match ParseSigns(rest)
        case None => None
        case Some(more) =>
          assert ([sign] + more)[1..] == more;
          Some([sign] + more)
  }

  lemma StripPrefixOf(prefix: string, s: string)
    ensures StripPrefix(prefix, prefix + s) == Some(s)
  {
    assert (prefix + s)[..|prefix|] == prefix;
  }

  lemma ReadFieldOf(tag: string, value: string, rest: string)
    requires OneLine(value)
    ensures ReadField(tag, Line(tag, value) + rest) == Some((value, rest))
  {
    Assoc(tag + value, "\n", rest);
    Assoc(tag, value, "\n" + rest);
    Assoc(value, "\n", rest);
    StripPrefixOf(tag, value + "\n" + rest);
    TakeLineAfter(value, rest);
  }

  /**
    The rendered block reads back as the sign it came from, whatever text
    follows it, as long as no field contains a newline.
   */
  lemma ParseRender(s: Sign, rest: string)
    requires OneLineFields(s)
    ensures ParseSign(Render(s) + rest) == Some((s, rest))
  {
    var r4 := Line(AddedAfterTag, s.reason) + rest;
    var r3 := Line(InstructionTag, s.instruction) + r4;
    var r2 := Line(TriggerTag, s.trigger) + r3;
    var r1 := Line(HeadingTag, s.name) + r2;
    RenderThen(s, rest);
    StripPrefixOf("\n", r1);
    ReadFieldOf(HeadingTag, s.name, r2);
    ReadFieldOf(TriggerTag, s.trigger, r3);
    ReadFieldOf(InstructionTag, s.instruction, r4);
    ReadFieldOf(AddedAfterTag, s.reason, rest);
  }

  /** A run of appended blocks reads back as the signs that were appended, in order. */
  lemma {:induction false} ParseRenderAll(signs: seq<Sign>)
    requires forall i | 0 <= i < |signs| :: OneLineFields(signs[i])
    ensures ParseSigns(RenderAll(signs)) == Some(signs)
    decreases |signs|
  {
    if |signs| > 0 {
      ParseRenderAll(signs[1..]);
      ParseRenderAllStep(signs);
    }
  }

  /** The inductive step: one more well-formed block in front of blocks that read back. */
  lemma ParseRenderAllStep(signs: seq<Sign>)
    requires |signs| > 0 && OneLineFields(signs[0])
    requires ParseSigns(RenderAll(signs[1..])) == Some(signs[1..])
    ensures ParseSigns(RenderAll(signs)) == Some(signs)
  {
    RenderAllCons(signs);
    ParseRenderThen(signs[0], RenderAll(signs[1..]), signs[1..]);
    HeadTail(signs);
  }

  lemma RenderAllCons(signs: seq<Sign>)
    requires |signs| > 0
    ensures RenderAll(signs) == Render(signs[0]) + RenderAll(signs[1..])
  {
  }

  lemma HeadTail(signs: seq<Sign>)
    requires |signs| > 0
    ensures [signs[0]] + signs[1..] == signs
  {
  }

  /** A rendered block in front of text that reads as blocks reads as one more block. */
  lemma ParseRenderThen(sign: Sign, rest: string, more: seq<Sign>)
    requires OneLineFields(sign)
    requires ParseSigns(rest) == Some(more)
    ensures ParseSigns(Render(sign) + rest) == Some([sign] + more)
  {
    ParseRender(sign, rest);
    ParseSignsCons(Render(sign) + rest, sign, rest, more);
  }

  /** One block read off the front, then the rest read as blocks, is reading the whole. */
  lemma ParseSignsCons(s: string, sign: Sign, rest: string, more: seq<Sign>)
    requires ParseSign(s) == Some((sign, rest))
    requires ParseSigns(rest) == Some(more)
    ensures ParseSigns(s) == Some([sign] + more)
  {
    assert StripPrefix("\n", s).Some?;
  }

  // ---------------------------------------------------------------------------
  // Field resolution
  // ---------------------------------------------------------------------------

  datatype Field = NameField | TriggerField | InstructionField | ReasonField

  /** The order in which the prompts are asked. */
  function Rank(f: Field): nat
  {
    match f
    case NameField => 0
    case TriggerField => 1
    case InstructionField => 2
    case ReasonField => 3
  }

  /** The `--name`, `--trigger`, `--instruction` and `--reason` options; None when not given. */
  datatype SignOptions = SignOptions(name: Option<string>, trigger: Option<string>,
                                     instruction: Option<string>, reason: Option<string>)
  {
    function Given(f: Field): Option<string>
    {
      match f
      case NameField => name
      case TriggerField => trigger
      case InstructionField => instruction
      case ReasonField => reason
    }
  }

  function FieldOf(s: Sign, f: Field): string
  {
    match f
    case NameField => s.name
    case TriggerField => s.trigger
    case InstructionField => s.instruction
    case ReasonField => s.reason
  }

  /** The line the user types at the prompt for each field (the interactive console as an oracle). */
  type Prompter = Field -> string

  /**
    The value a prompt yields. An empty line at the reason prompt gives its
    default; any other line is stripped of surrounding whitespace, so the
    answer never begins or ends with whitespace, and a blank line (of only
    whitespace) gives the empty string.
   */
  function Answer(ask: Prompter, f: Field): (a: string)
    ensures Trimmed(a)
    ensures f == ReasonField && ask(f) == "" ==> a == DefaultReason
    ensures !(f == ReasonField && ask(f) == "") ==>
      && (a == "" <==> AllSpace(ask(f)))
      && (Trimmed(ask(f)) ==> a == ask(f))
  {
    if f == ReasonField && ask(f) == "" then DefaultReason else Strip(ask(f))
  }

  /**
    Whitespace typed around an answer is dropped, at every prompt; only the
    reason prompt's entirely empty line stands for the default.
   */
  lemma AnswerIgnoresPadding(ask: Prompter, f: Field, pre: string, t: string, post: string)
    requires ask(f) == pre + t + post
    requires AllSpace(pre) && AllSpace(post) && Trimmed(t)
    requires f != ReasonField || ask(f) != ""
    ensures Answer(ask, f) == t
  {
    StripPadding(pre, t, post);
  }

  /** One field: the option when given, otherwise the prompt's answer. */
  function ResolveField(opts: SignOptions, ask: Prompter, f: Field): string
  {
    match opts.Given(f)
    case Some(v) => v
    case None => Answer(ask, f)
  }

  /**
    The prompts `add-sign` asks: one for each missing option, in the fixed
    order name, trigger, instruction, reason.
   */
  function Asked(opts: SignOptions): (asked: seq<Field>)
    ensures forall f :: f in asked <==> opts.Given(f).None?
    ensures InOrder(asked)
  {
    var a1 := AskIfMissing([], opts, NameField);
    var a2 := AskIfMissing(a1, opts, TriggerField);
    var a3 := AskIfMissing(a2, opts, InstructionField);
    var a4 := AskIfMissing(a3, opts, ReasonField);
    assert forall f :: f in a4 <==> opts.Given(f).None? by {
      forall f ensures f in a4 <==> opts.Given(f).None? {
        MissingOption(opts, f);
      }
    }
    a4
  }

  /** Which option a field's prompt stands in for. */
  lemma MissingOption(opts: SignOptions, f: Field)
    ensures opts.Given(f).None? <==>
      || (f == NameField && opts.name.None?)
      || (f == TriggerField && opts.trigger.None?)
      || (f == InstructionField && opts.instruction.None?)
      || (f == ReasonField && opts.reason.None?)
  {
  }

  /**
    One prompt of the sequence: the prompt for `f` is added after the
    earlier ones exactly when its option is missing.
   */
  function AskIfMissing(asked: seq<Field>, opts: SignOptions, f: Field): (r: seq<Field>)
    requires InOrder(asked) && forall i | 0 <= i < |asked| :: Rank(asked[i]) < Rank(f)
    ensures InOrder(r) && forall i | 0 <= i < |r| :: Rank(r[i]) <= Rank(f)
    ensures forall g :: g in r <==> g in asked || (g == f && opts.Given(f).None?)
  {
    if opts.Given(f).Some? then asked else asked + [f]
  }

  /**
    Resolves the four fields: each given option is used verbatim, and each
    missing one is asked for, in the fixed order name, trigger, instruction,
    reason. Returns the sign and the prompts that were asked.
   */
  function Resolve(opts: SignOptions, ask: Prompter): (r: (Sign, seq<Field>))
    ensures forall f :: f in r.1 <==> opts.Given(f).None?
    ensures InOrder(r.1)
    ensures forall f :: FieldOf(r.0, f) == if opts.Given(f).Some? then opts.Given(f).value else Answer(ask, f)
  {
    var sign := Sign(ResolveField(opts, ask, NameField), ResolveField(opts, ask, TriggerField),
                     ResolveField(opts, ask, InstructionField), ResolveField(opts, ask, ReasonField));
    assert forall f :: FieldOf(sign, f) == ResolveField(opts, ask, f);
    (sign, Asked(opts))
  }

  /** With every option given no prompt is asked and the sign is exactly the options. */
  lemma ResolveAllGiven(s: Sign, ask: Prompter)
    ensures Resolve(OptionsOf(s), ask) == (s, [])
  {
    var r := Resolve(OptionsOf(s), ask);
    assert r.0 == s;
    assert r.1 == [];
  }

  /** The options that give every field of `s`. */
  function OptionsOf(s: Sign): SignOptions
  {
    SignOptions(Some(s.name), Some(s.trigger), Some(s.instruction), Some(s.reason))
  }

  /** Prompts listed in strictly increasing rank. */
  predicate InOrder(asked: seq<Field>)
  {
    forall i, j | 0 <= i < j < |asked| :: Rank(asked[i]) < Rank(asked[j])
  }

  // ---------------------------------------------------------------------------
  // The add-sign command
  // ---------------------------------------------------------------------------

  datatype Added = Added(sign: Sign, asked: seq<Field>)

  /**
    `add-sign`: fails with exit 1, asking nothing and writing nothing, when
    the ledger is absent; otherwise resolves the sign and appends its block
    to the ledger, leaving every other file and directory as it was.
   */
  function AddSign(fs: Fs, root: Option<Path>, cwd: Path, opts: SignOptions, ask: Prompter): (r: Reply<Added>)
    ensures r.Failed? ==> r.fs == fs
    ensures var g := GetRalphDir(root, cwd) + [GuardrailsFile];
      && (!Exists(fs, g) <==> r == Failed(fs, NotInitialized(g)))
      && (r.ExitCode() == 0 <==> g in fs.files)
    ensures var g := GetRalphDir(root, cwd) + [GuardrailsFile];
      r.Done? ==>
        && r.fs.dirs == fs.dirs
        && r.fs.files.Keys == fs.files.Keys
        && (forall p | p in fs.files && p != g :: r.fs.files[p] == fs.files[p])
        && |r.fs.files[g]| > |fs.files[g]|
        && r.fs.files[g][..|fs.files[g]|] == fs.files[g]
        && r.fs.files[g][|fs.files[g]|..] == Render(r.value.sign)
    ensures r.Done? ==> r.value == Added(Resolve(opts, ask).0, Resolve(opts, ask).1)
  {
    var g := GetRalphDir(root, cwd) + [GuardrailsFile];
    if !Exists(fs, g) then Failed(fs, NotInitialized(g))
    else
      var (sign, asked) := Resolve(opts, ask);
      if g !in fs.files then Failed(fs, IsADirectory(g))
      else
        var ledger := fs.files[g] + Render(sign);
        assert ledger[..|fs.files[g]|] == fs.files[g];
        Done(Fs(fs.files[g := ledger], fs.dirs), Added(sign, asked))
  }

  /**
    A run of `add-sign` commands, one per sign, each with every option
    given, stopping at the first failure. A run fails only at its first
    command, with nothing written, and only when the ledger is not a file;
    a run that succeeds keeps every directory and creates no file.
   */
  function AddSigns(fs: Fs, root: Option<Path>, cwd: Path, signs: seq<Sign>, ask: Prompter): (r: Reply<()>)
    ensures var g := GetRalphDir(root, cwd) + [GuardrailsFile];
      && (r.Done? <==> |signs| == 0 || g in fs.files)
      && (r.Failed? ==> r.fs == fs && (r.error == NotInitialized(g) <==> !Exists(fs, g)))
      && (r.Done? ==> r.fs.dirs == fs.dirs && r.fs.files.Keys == fs.files.Keys)
    decreases |signs|
  {
    if |signs| == 0 then Done(fs, ())
    else
      match AddSign(fs, root, cwd, OptionsOf(signs[0]), ask)
      case Failed(fs', e) => Failed(fs', e)
      case Done(fs', _) => AddSigns(fs', root, cwd, signs[1..], ask)
  }

  /**
    The ledger only grows: once it exists, any number of additions succeed,
    leave every other file as it was, and extend the old ledger by exactly
    the blocks of the added signs, in order.
   */
  lemma {:induction false} AddSignsAppendOnly(fs: Fs, root: Option<Path>, cwd: Path, signs: seq<Sign>, ask: Prompter)
    requires GetRalphDir(root, cwd) + [GuardrailsFile] in fs.files
    ensures var g := GetRalphDir(root, cwd) + [GuardrailsFile];
      var r := AddSigns(fs, root, cwd, signs, ask);
      && r.Done?
      && r.fs.files.Keys == fs.files.Keys
      && (forall p | p in fs.files && p != g :: r.fs.files[p] == fs.files[p])
      && r.fs.files[g] == fs.files[g] + RenderAll(signs)
    decreases |signs|
  {
    var g := GetRalphDir(root, cwd) + [GuardrailsFile];
    if |signs| > 0 {
      var step := AddSign(fs, root, cwd, OptionsOf(signs[0]), ask);
      ResolveAllGiven(signs[0], ask);
      assert step.Done? && step.value.sign == signs[0];
      var before := fs.files[g];
      var after := step.fs.files[g];
      assert after == after[..|before|] + after[|before|..];
      assert after == before + Render(signs[0]);
      AddSignsAppendOnly(step.fs, root, cwd, signs[1..], ask);
      assert AddSigns(fs, root, cwd, signs, ask) == AddSigns(step.fs, root, cwd, signs[1..], ask);
      Assoc(before, Render(signs[0]), RenderAll(signs[1..]));
    }
  }

  /**
    What a run of additions appends reads back as the signs that were
    added, in order, when no field holds a newline.
   */
  lemma AddSignsReadBack(fs: Fs, root: Option<Path>, cwd: Path, signs: seq<Sign>, ask: Prompter)
    requires GetRalphDir(root, cwd) + [GuardrailsFile] in fs.files
    requires forall i | 0 <= i < |signs| :: OneLineFields(signs[i])
    ensures var g := GetRalphDir(root, cwd) + [GuardrailsFile];
      var r := AddSigns(fs, root, cwd, signs, ask);
      && r.Done? && g in r.fs.files && |fs.files[g]| <= |r.fs.files[g]|
      && ParseSigns(r.fs.files[g][|fs.files[g]|..]) == Some(signs)
  {
    var g := GetRalphDir(root, cwd) + [GuardrailsFile];
    AddSignsAppendOnly(fs, root, cwd, signs, ask);
    var r := AddSigns(fs, root, cwd, signs, ask);
    assert r.fs.files[g][|fs.files[g]|..] == RenderAll(signs);
    ParseRenderAll(signs);
  }
}

=== FILE: launch.dfy ===
/**
  Running the bundled scripts: `run_script`, and the environment and
  argument lists the `once` and `loop` commands hand to it. The scripts
  themselves, and the process they start, are outside the model: the child
  process is an oracle from command line and environment to a return code.
 */
module Launch {
  import opened Optional
  import opened Decimal

  const OnceScript: string := "ralph-once.sh"
  const LoopScript: string := "ralph-loop.sh"

  const PromiseVar: string := "RALPH_PROMISE"
  const AgentVar: string := "RALPH_AGENT"
  const ArtifactDirVar: string := "RALPH_ARTIFACT_DIR"
  const SleepVar: string := "RALPH_SLEEP_SECONDS"

  type Env = map<string, string>

  /** The bundled scripts directory and the names of the scripts present in it. */
  datatype Scripts = Scripts(dir: string, present: set<string>)

  function ScriptPath(scripts: Scripts, name: string): string
  {
    scripts.dir + "/" + name
  }

  /** The child process: its return code for a command line and an environment. */
  type Child = (seq<string>, Env) -> int

  /** What `run_script` did: reported a missing script, or ran a command. */
  datatype Run = ScriptMissing(path: string) | Ran(cmd: seq<string>, env: Env, code: int) {

    /** The value `run_script` returns. */
    function ReturnCode(): int
    {
      if ScriptMissing? then 1 else code
    }
  }

  /** The inherited environment updated with the supplied entries: `os.environ.copy()` then `update(env)`. */
  function Overlay(inherited: Env, env: Option<Env>): (r: Env)
    ensures forall k :: k in r <==> k in inherited || (env.Some? && k in env.value)
    ensures env.Some? ==> forall k | k in env.value :: r[k] == env.value[k]
    ensures forall k | k in inherited && (env.None? || k !in env.value) :: r[k] == inherited[k]
  {
    match env
    case None => inherited
    case Some(e) => inherited + e
  }

  /**
    `run_script`: returns 1 without running anything when the script is
    missing; otherwise runs `bash <script> <args...>` in the inherited
    environment overridden by `env`, and returns the child's code unchanged.
   */
  function RunScript(scripts: Scripts, name: string, args: Option<seq<string>>, env: Option<Env>,
                     inherited: Env, child: Child): (r: Run)
    ensures r.ScriptMissing? <==> name !in scripts.present
    ensures r.ScriptMissing? ==> r.path == ScriptPath(scripts, name) && r.ReturnCode() == 1
    ensures r.Ran? ==> |r.cmd| >= 2 && r.cmd[0] == "bash" && r.cmd[1] == ScriptPath(scripts, name)
    ensures r.Ran? ==> r.cmd[2..] == (if args.Some? then args.value else [])
    ensures r.Ran? ==> r.env == Overlay(inherited, env)
    ensures r.Ran? ==> r.ReturnCode() == child(r.cmd, r.env)
  {
    var path := ScriptPath(scripts, name);
    if name !in scripts.present then ScriptMissing(path)
    else
      var cmd := ["bash", path] + args.ValueOr([]);
      var runEnv := Overlay(inherited, env);
      Ran(cmd, runEnv, child(cmd, runEnv))
  }

  /**
    The process exit status `sys.exit(code)` produces on POSIX: the low
    eight bits of the code, so codes 0 to 255 pass through unchanged and a
    child killed by signal N (return code -N) gives 256 - N.
   */
  function ExitStatus(code: int): (s: int)
    ensures 0 <= s < 256
    ensures (code - s) % 256 == 0
    ensures 0 <= code < 256 ==> s == code
    ensures -256 < code < 0 ==> s == 256 + code
  {
    code % 256
  }

  // ---------------------------------------------------------------------------
  // once
  // ---------------------------------------------------------------------------

  /** The environment `once` supplies. */
  function OnceEnv(agent: string, keepArtifacts: bool, promise: string): (env: Env)
    ensures env.Keys == {PromiseVar, AgentVar} + (if keepArtifacts then {ArtifactDirVar} else {})
    ensures env[PromiseVar] == promise && env[AgentVar] == agent
    ensures keepArtifacts ==> env[ArtifactDirVar] == "/tmp/ralph-" + agent + "-debug"
  {
    var env := map[PromiseVar := promise, AgentVar := agent];
    if keepArtifacts then env[ArtifactDirVar := "/tmp/ralph-" + agent + "-debug"] else env
  }

  /**
    `once`: runs the single-iteration script with no arguments. The promise
    and agent always reach it; the artifact directory is set when artifacts
    are kept, and otherwise only whatever the caller's environment holds.
   */
  function Once(scripts: Scripts, agent: string, keepArtifacts: bool, promise: string,
                inherited: Env, child: Child): (r: Run)
    ensures r.ScriptMissing? <==> OnceScript !in scripts.present
    ensures r.Ran? ==> r.cmd == ["bash", ScriptPath(scripts, OnceScript)]
    ensures r.Ran? ==> r.env.Keys == inherited.Keys + OnceEnv(agent, keepArtifacts, promise).Keys
    ensures r.Ran? ==> inherited.Keys <= r.env.Keys && PromiseVar in r.env && AgentVar in r.env
    ensures r.Ran? ==> (ArtifactDirVar in r.env <==> keepArtifacts || ArtifactDirVar in inherited)
    ensures r.Ran? ==> r.env[PromiseVar] == promise && r.env[AgentVar] == agent
    ensures r.Ran? && keepArtifacts ==> r.env[ArtifactDirVar] == "/tmp/ralph-" + agent + "-debug"
    ensures r.Ran? ==> forall k | k in inherited && k !in OnceEnv(agent, keepArtifacts, promise) :: r.env[k] == inherited[k]
    ensures r.Ran? ==> r.ReturnCode() == child(r.cmd, r.env)
  {
    RunScript(scripts, OnceScript, None, Some(OnceEnv(agent, keepArtifacts, promise)), inherited, child)
  }

  /**
    The exit status of the `once` command: 1 when its script is missing,
    otherwise the child's code, with a death by signal N seen as 256 - N.
   */
  function OnceExit(scripts: Scripts, agent: string, keepArtifacts: bool, promise: string,
                    inherited: Env, child: Child): (s: int)
    ensures 0 <= s < 256
    ensures OnceScript !in scripts.present ==> s == 1
    ensures OnceScript in scripts.present ==>
      var code := child(["bash", ScriptPath(scripts, OnceScript)],
                        Overlay(inherited, Some(OnceEnv(agent, keepArtifacts, promise))));
      && (0 <= code < 256 ==> s == code)
      && (-256 < code < 0 ==> s == 256 + code)
  {
    ExitStatus(Once(scripts, agent, keepArtifacts, promise, inherited, child).ReturnCode())
  }

  // ---------------------------------------------------------------------------
  // loop
  // ---------------------------------------------------------------------------

  /** The options of `loop`. `iterations` is passed on as given; nothing checks that it is positive. */
  datatype LoopOptions = LoopOptions(iterations: int, agent: string, detach: bool, keepArtifacts: bool,
                                     promise: string, sleep: Option<int>)

  /**
    The arguments `loop` gives its script: the iteration count, the agent,
    then `--detach` when detaching, then `--sleep <seconds>` when a sleep is set.
   */
  function LoopArgs(o: LoopOptions): (args: seq<string>)
    ensures |args| == 3 + (if o.detach then 1 else 0) + (if o.sleep.Some? then 2 else 0)
    ensures args[..3] == [IntToString(o.iterations), "--agent", o.agent]
    ensures o.detach ==> args[3] == "--detach"
    ensures o.sleep.Some? ==> args[|args| - 2..] == ["--sleep", IntToString(o.sleep.value)]
  {
    var args := [IntToString(o.iterations), "--agent", o.agent];
    var args := if o.detach then args + ["--detach"] else args;
    if o.sleep.Some? then args + ["--sleep", IntToString(o.sleep.value)] else args
  }

  /** The environment `loop` supplies. */
  function LoopEnv(o: LoopOptions): (env: Env)
    ensures env.Keys == {PromiseVar, AgentVar} + (if o.keepArtifacts then {ArtifactDirVar} else {})
                        + (if o.sleep.Some? then {SleepVar} else {})
    ensures env[PromiseVar] == o.promise && env[AgentVar] == o.agent
    ensures o.keepArtifacts ==> env[ArtifactDirVar] == "/tmp/ralph-" + o.agent + "-loop"
    ensures o.sleep.Some? ==> env[SleepVar] == IntToString(o.sleep.value)
  {
    var env := map[PromiseVar := o.promise, AgentVar := o.agent];
    var env := if o.keepArtifacts then env[ArtifactDirVar := "/tmp/ralph-" + o.agent + "-loop"] else env;
    if o.sleep.Some? then env[SleepVar := IntToString(o.sleep.value)] else env
  }

  /** `loop`: runs the loop script with the loop arguments and environment and passes its code through. */
  function Loop(scripts: Scripts, o: LoopOptions, inherited: Env, child: Child): (r: Run)
    ensures r.ScriptMissing? <==> LoopScript !in scripts.present
    ensures r.Ran? ==> r.cmd == ["bash", ScriptPath(scripts, LoopScript)] + LoopArgs(o)
    ensures r.Ran? ==> r.env.Keys == inherited.Keys + LoopEnv(o).Keys
    ensures r.Ran? ==> inherited.Keys <= r.env.Keys && PromiseVar in r.env && AgentVar in r.env
    ensures r.Ran? ==> r.env[PromiseVar] == o.promise && r.env[AgentVar] == o.agent
    ensures r.Ran? ==> (ArtifactDirVar in r.env <==> o.keepArtifacts || ArtifactDirVar in inherited)
    ensures r.Ran? && o.keepArtifacts ==> r.env[ArtifactDirVar] == "/tmp/ralph-" + o.agent + "-loop"
    ensures r.Ran? ==> (SleepVar in r.env <==> o.sleep.Some? || SleepVar in inherited)
    ensures r.Ran? && o.sleep.Some? ==> r.env[SleepVar] == IntToString(o.sleep.value)
    ensures r.Ran? ==> forall k | k in inherited && k !in LoopEnv(o) :: r.env[k] == inherited[k]
    ensures r.Ran? ==> r.ReturnCode() == child(r.cmd, r.env)
  {
    RunScript(scripts, LoopScript, Some(LoopArgs(o)), Some(LoopEnv(o)), inherited, child)
  }

  /**
    The exit status of the `loop` command: 1 when its script is missing,
    otherwise the child's code, with a death by signal N seen as 256 - N.
   */
  function LoopExit(scripts: Scripts, o: LoopOptions, inherited: Env, child: Child): (s: int)
    ensures 0 <= s < 256
    ensures LoopScript !in scripts.present ==> s == 1
    ensures LoopScript in scripts.present ==>
      var code := child(["bash", ScriptPath(scripts, LoopScript)] + LoopArgs(o), Overlay(inherited, Some(LoopEnv(o))));
      && (0 <= code < 256 ==> s == code)
      && (-256 < code < 0 ==> s == 256 + code)
  {
    ExitStatus(Loop(scripts, o, inherited, child).ReturnCode())
  }

  /** What the loop script receives on its command line. */
  datatype LoopArgv = LoopArgv(iterations: int, agent: string, detach: bool, sleep: Option<int>)

  /** Reads the loop arguments back in the shape `LoopArgs` writes them; None for any other shape. */
  function ParseLoopArgs(args: seq<string>): Option<LoopArgv>
  {
    if |args| < 3 || args[1] != "--agent" then None
    else
      match ParseInt(args[0])
      case None => None
      case Some(n) =>
        var rest := args[3..];
        var detach := |rest| > 0 && rest[0] == "--detach";
        var rest := if detach then rest[1..] else rest;
        if |rest| == 0 then Some(LoopArgv(n, args[2], detach, None))
        else if |rest| == 2 && rest[0] == "--sleep" then
          match ParseInt(rest[1])
          case None => None
          case Some(s) => Some(LoopArgv(n, args[2], detach, Some(s)))
        else None
  }

  /** The loop arguments carry every option the script needs, unambiguously. */
  lemma ParseLoopArgsRoundTrip(o: LoopOptions)
    ensures ParseLoopArgs(LoopArgs(o)) == Some(LoopArgv(o.iterations, o.agent, o.detach, o.sleep))
  {
    var args := LoopArgs(o);
    ParseIntToString(o.iterations);
    if o.sleep.Some? {
      ParseIntToString(o.sleep.value);
      assert args[3] != "--detach" || o.detach by {
        if !o.detach {
          assert args[3] == "--sleep";
        }
      }
    }
    assert args[0] == IntToString(o.iterations) && args[1] == "--agent" && args[2] == o.agent;
  }
}

=== FILE: lifecycle.dfy ===
/**
  How the commands that share the project state relate: the read and
  append commands need `init` first, `init` makes them usable, and
  re-running `init` never touches a ledger that has grown since.
 */
module Lifecycle {
  import opened Optional
  import opened FileStore
  import Setup
  import Guardrails
  import Views

  /**
    Before `init` has provided the state files, every command that needs
    one stops with exit 1, reports that `init` has to run first, asks no
    question and leaves the filesystem exactly as it was.
   */
  lemma CommandsNeedInit(fs: Fs, root: Option<Path>, cwd: Path, n: int,
                         opts: Guardrails.SignOptions, ask: Guardrails.Prompter)
    requires var d := GetRalphDir(root, cwd);
      && !Exists(fs, d + [GuardrailsFile]) && !Exists(fs, d + [ActivityLogFile]) && !Exists(fs, d + [ErrorsLogFile])
    ensures var d := GetRalphDir(root, cwd);
      && Views.ShowActivity(fs, root, cwd, n) == Failed(fs, NotInitialized(d + [ActivityLogFile]))
      && Views.ShowErrors(fs, root, cwd, n) == Failed(fs, NotInitialized(d + [ErrorsLogFile]))
      && Views.ShowGuardrails(fs, root, cwd) == Failed(fs, NotInitialized(d + [GuardrailsFile]))
      && Guardrails.AddSign(fs, root, cwd, opts, ask) == Failed(fs, NotInitialized(d + [GuardrailsFile]))
  {
  }

  /**
    After a successful `init` with all three templates bundled, none of the
    commands that need the state files reports that `init` is missing.
   */
  lemma InitEnablesCommands(fs: Fs, root: Option<Path>, cwd: Path, templates: map<string, string>, n: int,
                            opts: Guardrails.SignOptions, ask: Guardrails.Prompter)
    requires Setup.Init(fs, root, cwd, templates).Done?
    requires "guardrails.md" in templates && "activity.md" in templates && "errors.md" in templates
    ensures var fs1 := Setup.Init(fs, root, cwd, templates).fs;
      && !(Views.ShowActivity(fs1, root, cwd, n).Failed? && Views.ShowActivity(fs1, root, cwd, n).error.NotInitialized?)
      && !(Views.ShowErrors(fs1, root, cwd, n).Failed? && Views.ShowErrors(fs1, root, cwd, n).error.NotInitialized?)
      && !(Views.ShowGuardrails(fs1, root, cwd).Failed? && Views.ShowGuardrails(fs1, root, cwd).error.NotInitialized?)
      && !(Guardrails.AddSign(fs1, root, cwd, opts, ask).Failed?
           && Guardrails.AddSign(fs1, root, cwd, opts, ask).error.NotInitialized?)
  {
    Setup.InitProvidesStateFiles(fs, root, cwd, templates);
    assert Setup.IsStateFile(GuardrailsFile) && Setup.TemplateOf(GuardrailsFile) == "guardrails.md";
    assert Setup.IsStateFile(ActivityLogFile) && Setup.TemplateOf(ActivityLogFile) == "activity.md";
    assert Setup.IsStateFile(ErrorsLogFile) && Setup.TemplateOf(ErrorsLogFile) == "errors.md";
  }

  /**
    Re-running `init` after signs were added keeps them: the grown ledger
    is an existing file, so `init` leaves it byte for byte as it is.
   */
  lemma ReinitKeepsSigns(fs: Fs, root: Option<Path>, cwd: Path, templates: map<string, string>,
                         opts: Guardrails.SignOptions, ask: Guardrails.Prompter)
    requires Guardrails.AddSign(fs, root, cwd, opts, ask).Done?
    requires Setup.Init(Guardrails.AddSign(fs, root, cwd, opts, ask).fs, root, cwd, templates).Done?
    ensures var g := GetRalphDir(root, cwd) + [GuardrailsFile];
      var added := Guardrails.AddSign(fs, root, cwd, opts, ask);
      var again := Setup.Init(added.fs, root, cwd, templates);
      && g in again.fs.files
      && again.fs.files[g] == fs.files[g] + Guardrails.Render(added.value.sign)
  {
    var g := GetRalphDir(root, cwd) + [GuardrailsFile];
    var added := Guardrails.AddSign(fs, root, cwd, opts, ask);
    var ledger := added.fs.files[g];
    assert ledger == ledger[..|fs.files[g]|] + ledger[|fs.files[g]|..];
  }
}

=== FILE: optional.dfy ===
/** Python's `None`-or-value: an option left unset, or one set to a value. */
module Optional {

  datatype Option<T> = None | Some(value: T) {

    /** The value that was set, or `fallback` when none was. */
    function ValueOr(fallback: T): T
    {
      if Some? then value else fallback
    }
  }
}

=== FILE: setup.dfy ===
/**
  The `init` command: creates `.ralph/` and `.ralph/runs/`, then copies each
  bundled template into place when nothing is at its target yet and the
  template itself is present.
 */
module Setup {
  import opened Optional
  import opened FileStore

  /** Bundled template name and the state file it becomes, in the order `init` visits them. */
  const TemplateMapping: seq<(string, string)> :=
    [("guardrails.md", GuardrailsFile), ("activity.md", ActivityLogFile), ("errors.md", ErrorsLogFile)]

  /** The three state files `init` provides. */
  predicate IsStateFile(t: string)
  {
    t == GuardrailsFile || t == ActivityLogFile || t == ErrorsLogFile
  }

  /** The template each state file is copied from. */
  function TemplateOf(t: string): string
  {
    if t == GuardrailsFile then "guardrails.md"
    else if t == ActivityLogFile then "activity.md"
    else "errors.md"
  }

  /** Position of a state file in the copy order. */
  function Rank(t: string): nat
  {
    if t == GuardrailsFile then 0 else if t == ActivityLogFile then 1 else 2
  }

  /** Targets are pairwise different, so one copy cannot affect the check for another. */
  predicate DistinctTargets(mapping: seq<(string, string)>)
  {
    forall i, j | 0 <= i < j < |mapping| :: mapping[i].1 != mapping[j].1
  }

  /** The copy condition of `init`: nothing exists at the target and the template exists. */
  predicate Copies(fs: Fs, dir: Path, templates: map<string, string>, entry: (string, string))
  {
    !Exists(fs, dir + [entry.1]) && entry.0 in templates
  }

  /** The targets whose copy condition holds in the state before any copying, in mapping order. */
  function Creatable(fs: Fs, dir: Path, templates: map<string, string>, mapping: seq<(string, string)>): seq<string>
  {
    if |mapping| == 0 then []
    else (if Copies(fs, dir, templates, mapping[0]) then [mapping[0].1] else [])
         + Creatable(fs, dir, templates, mapping[1..])
  }

  lemma AppendInjective(dir: Path, a: string, b: string)
    requires dir + [a] == dir + [b]
    ensures a == b
  {
    assert (dir + [a])[|dir|] == a;
  }

  /**
    The copy loop of `init`, one mapping entry after the other, returning the
    new state and the created targets. Existing files are never touched,
    and what gets created is decided by the state before the loop.
   */
  function CopyTemplates(fs: Fs, dir: Path, templates: map<string, string>, mapping: seq<(string, string)>)
    : (r: (Fs, seq<string>))
    requires DistinctTargets(mapping)
    ensures r.0.dirs == fs.dirs
    ensures forall p | p in fs.files :: p in r.0.files && r.0.files[p] == fs.files[p]
    ensures r.1 == Creatable(fs, dir, templates, mapping)
    ensures forall p | p in r.0.files && p !in fs.files ::
      exists i | 0 <= i < |mapping| :: Copies(fs, dir, templates, mapping[i]) && p == dir + [mapping[i].1]
    ensures forall i | 0 <= i < |mapping| && Copies(fs, dir, templates, mapping[i]) ::
      dir + [mapping[i].1] in r.0.files && r.0.files[dir + [mapping[i].1]] == templates[mapping[i].0]
    decreases |mapping|
  {
    if |mapping| == 0 then (fs, [])
    else
      var (tpl, target) := mapping[0];
      var path := dir + [target];
      var fs1 := if Copies(fs, dir, templates, mapping[0]) then Fs(fs.files[path := templates[tpl]], fs.dirs) else fs;
      var made := if Copies(fs, dir, templates, mapping[0]) then [target] else [];
      assert DistinctTargets(mapping[1..]);
      forall i | 0 <= i < |mapping| - 1
        ensures Copies(fs1, dir, templates, mapping[1..][i]) == Copies(fs, dir, templates, mapping[1..][i])
      {
        if dir + [mapping[1..][i].1] == path {
          AppendInjective(dir, mapping[1..][i].1, target);
        }
      }
      assert Creatable(fs1, dir, templates, mapping[1..]) == Creatable(fs, dir, templates, mapping[1..]) by {
        CreatableAgree(fs1, fs, dir, templates, mapping[1..]);
      }
      var (fs2, rest) := CopyTemplates(fs1, dir, templates, mapping[1..]);
      assert forall i | 1 <= i < |mapping| :: mapping[i] == mapping[1..][i - 1];
      (fs2, made + rest)
  }

  /** Two states that agree on every copy condition agree on what is creatable. */
  lemma {:induction false} CreatableAgree(fs: Fs, fs': Fs, dir: Path, templates: map<string, string>, mapping: seq<(string, string)>)
    requires forall i | 0 <= i < |mapping| :: Copies(fs, dir, templates, mapping[i]) == Copies(fs', dir, templates, mapping[i])
    ensures Creatable(fs, dir, templates, mapping) == Creatable(fs', dir, templates, mapping)
    decreases |mapping|
  {
    if |mapping| > 0 {
      CreatableAgree(fs, fs', dir, templates, mapping[1..]);
    }
  }

  /** What `init` reports: the state directory and the files it created, in creation order. */
  datatype InitReport = InitReport(ralphDir: Path, created: seq<string>) {

    /** Whether `init` reports a fresh initialisation (otherwise it says the directory already exists). */
    predicate FreshlyInitialized()
    {
      |created| > 0
    }
  }

  /**
    `init`. It fails, with exit 1, only when a regular file blocks one of
    the two directories. Otherwise the directories exist afterwards, no
    existing file is modified, and each state file is created from its
    template exactly when nothing was at its path and the template exists;
    a missing template only skips that one file. `created` lists the new
    files in the fixed order guardrails, activity log, error log.
   */
  function Init(fs: Fs, root: Option<Path>, cwd: Path, templates: map<string, string>): (r: Reply<InitReport>)
    ensures var d := GetRalphDir(root, cwd);
      && (r.Failed? <==> BlockedBy(fs, d) || BlockedBy(fs, d + [RunsDirName]))
      && (r.Failed? ==> r.error.Blocked? && r.fs.files == fs.files)
      && (r.Failed? && BlockedBy(fs, d) ==> r.fs == fs)
    ensures var d := GetRalphDir(root, cwd);
      r.Done? ==>
        && r.value.ralphDir == d
        && d in r.fs.dirs && d + [RunsDirName] in r.fs.dirs
        && (forall q :: q in r.fs.dirs <==> q in fs.dirs || q in Prefixes(d + [RunsDirName]))
        && (forall p | p in fs.files :: p in r.fs.files && r.fs.files[p] == fs.files[p])
        && (forall t :: t in r.value.created <==> IsStateFile(t) && !Exists(fs, d + [t]) && TemplateOf(t) in templates)
        && (forall i, j | 0 <= i < j < |r.value.created| :: Rank(r.value.created[i]) < Rank(r.value.created[j]))
        && (forall p | p in r.fs.files && p !in fs.files :: exists t | t in r.value.created :: p == d + [t])
        && (forall t | t in r.value.created ::
              TemplateOf(t) in templates && d + [t] in r.fs.files && r.fs.files[d + [t]] == templates[TemplateOf(t)])
  {
    var d := GetRalphDir(root, cwd);
    var runs := d + [RunsDirName];
    match MakeDirs(fs, d)
    case Failed(fs', e) => Failed(fs', e)
    case Done(fs1, _) =>
      match MakeDirs(fs1, runs)
      case Failed(fs', e) => Failed(fs', e)
      case Done(fs2, _) =>
        var (fs3, created) := CopyTemplates(fs2, d, templates, TemplateMapping);
        PrefixesNest(d);
        InitCreated(fs, fs2, d, templates);
        InitFiles(fs, fs2, d, templates);
        Done(fs3, InitReport(d, created))
  }

  /** The directories made for `.ralph` are among those made for `.ralph/runs`. */
  lemma PrefixesNest(d: Path)
    ensures Prefixes(d) <= Prefixes(d + [RunsDirName])
  {
    forall q | q in Prefixes(d) ensures q in Prefixes(d + [RunsDirName]) {
      var k :| 1 <= k <= |d| && q == d[..k];
      assert (d + [RunsDirName])[..k] == q;
    }
  }

  /** Making the two directories changes nothing `init` checks before copying. */
  lemma MkdirsKeepStateFiles(fs: Fs, fs2: Fs, d: Path, t: string)
    requires IsStateFile(t)
    requires fs2.files == fs.files
    requires forall q :: q in fs2.dirs <==> q in fs.dirs || q in Prefixes(d) || q in Prefixes(d + [RunsDirName])
    ensures Exists(fs2, d + [t]) <==> Exists(fs, d + [t])
  {
    PrefixesOfRuns(d, t);
  }

  /** The created list of `init`, described against the state before `init` ran. */
  lemma InitCreated(fs: Fs, fs2: Fs, d: Path, templates: map<string, string>)
    requires fs2.files == fs.files
    requires forall q :: q in fs2.dirs <==> q in fs.dirs || q in Prefixes(d) || q in Prefixes(d + [RunsDirName])
    ensures var created := CopyTemplates(fs2, d, templates, TemplateMapping).1;
      && (forall t :: t in created <==> IsStateFile(t) && !Exists(fs, d + [t]) && TemplateOf(t) in templates)
      && (forall i, j | 0 <= i < j < |created| :: Rank(created[i]) < Rank(created[j]))
  {
    CreatableAfterMkdirs(fs, fs2, d, templates);
    CreatedByFacts(fs, d, templates);
  }

  /** The state files `init` creates, in copy order, judged on the state before copying. */
  function CreatedBy(fs: Fs, d: Path, templates: map<string, string>): seq<string>
  {
    CreatedIf(fs, d, templates, GuardrailsFile) + CreatedIf(fs, d, templates, ActivityLogFile)
    + CreatedIf(fs, d, templates, ErrorsLogFile)
  }

  /** Making the two directories does not change which state files the copy loop creates. */
  lemma CreatableAfterMkdirs(fs: Fs, fs2: Fs, d: Path, templates: map<string, string>)
    requires fs2.files == fs.files
    requires forall q :: q in fs2.dirs <==> q in fs.dirs || q in Prefixes(d) || q in Prefixes(d + [RunsDirName])
    ensures Creatable(fs2, d, templates, TemplateMapping) == CreatedBy(fs, d, templates)
  {
    CreatableOfMapping(fs2, d, templates);
    MkdirsKeepStateFiles(fs, fs2, d, GuardrailsFile);
    MkdirsKeepStateFiles(fs, fs2, d, ActivityLogFile);
    MkdirsKeepStateFiles(fs, fs2, d, ErrorsLogFile);
  }

  /** A state file is created exactly when nothing is at its path and its template exists; the list is in copy order. */
  lemma CreatedByFacts(fs: Fs, d: Path, templates: map<string, string>)
    ensures var c := CreatedBy(fs, d, templates);
      && (forall t :: t in c <==> IsStateFile(t) && !Exists(fs, d + [t]) && TemplateOf(t) in templates)
      && (forall i, j | 0 <= i < j < |c| :: Rank(c[i]) < Rank(c[j]))
  {
    var c1, c2, c3 := CreatedIf(fs, d, templates, GuardrailsFile), CreatedIf(fs, d, templates, ActivityLogFile),
                      CreatedIf(fs, d, templates, ErrorsLogFile);
    CreatedInOrder(c1, c2, c3);
    forall t
      ensures t in c1 + c2 + c3 <==> IsStateFile(t) && !Exists(fs, d + [t]) && TemplateOf(t) in templates
    {
      CreatedIfMember(fs, d, templates, GuardrailsFile, t);
      CreatedIfMember(fs, d, templates, ActivityLogFile, t);
      CreatedIfMember(fs, d, templates, ErrorsLogFile, t);
    }
  }

  lemma CreatedIfMember(fs: Fs, d: Path, templates: map<string, string>, t: string, u: string)
    ensures u in CreatedIf(fs, d, templates, t) <==> u == t && !Exists(fs, d + [t]) && TemplateOf(t) in templates
  {
  }

  /** Any choice among the three state files, listed in copy order, is ordered by rank and has no repeats. */
  lemma CreatedInOrder(c1: seq<string>, c2: seq<string>, c3: seq<string>)
    requires c1 == [] || c1 == [GuardrailsFile]
    requires c2 == [] || c2 == [ActivityLogFile]
    requires c3 == [] || c3 == [ErrorsLogFile]
    ensures forall t :: t in c1 + c2 + c3 <==> t in c1 || t in c2 || t in c3
    ensures forall i, j | 0 <= i < j < |c1 + c2 + c3| :: Rank((c1 + c2 + c3)[i]) < Rank((c1 + c2 + c3)[j])
  {
    assert Rank(GuardrailsFile) == 0 && Rank(ActivityLogFile) == 1 && Rank(ErrorsLogFile) == 2;
  }

  /** The files after `init`: old ones untouched, new ones exactly the created state files, holding their templates. */
  lemma InitFiles(fs: Fs, fs2: Fs, d: Path, templates: map<string, string>)
    requires fs2.files == fs.files
    ensures var (fs3, created) := CopyTemplates(fs2, d, templates, TemplateMapping);
      && (forall p | p in fs3.files && p !in fs.files :: exists t | t in created :: p == d + [t])
      && (forall t | t in created ::
            TemplateOf(t) in templates && d + [t] in fs3.files && fs3.files[d + [t]] == templates[TemplateOf(t)])
  {
    InitNewFiles(fs2, d, templates);
    InitCopiedFiles(fs2, d, templates);
  }

  /** Every file `init` adds is one of the created state files. */
  lemma InitNewFiles(fs: Fs, d: Path, templates: map<string, string>)
    ensures var (fs3, created) := CopyTemplates(fs, d, templates, TemplateMapping);
      forall p | p in fs3.files && p !in fs.files :: exists t | t in created :: p == d + [t]
  {
    CopyAddsCreated(fs, d, templates, TemplateMapping);
  }

  /** Every file the copy loop adds is at one of the targets it reports. */
  lemma CopyAddsCreated(fs: Fs, dir: Path, templates: map<string, string>, mapping: seq<(string, string)>)
    requires DistinctTargets(mapping)
    ensures var r := CopyTemplates(fs, dir, templates, mapping);
      forall p | p in r.0.files && p !in fs.files :: exists t | t in r.1 :: p == dir + [t]
  {
    var r := CopyTemplates(fs, dir, templates, mapping);
    forall p | p in r.0.files && p !in fs.files
      ensures exists t | t in r.1 :: p == dir + [t]
    {
      var i :| 0 <= i < |mapping| && Copies(fs, dir, templates, mapping[i]) && p == dir + [mapping[i].1];
      CreatableHas(fs, dir, templates, mapping, i);
    }
  }

  /** A target whose copy condition holds is reported as creatable. */
  lemma {:induction false} CreatableHas(fs: Fs, dir: Path, templates: map<string, string>,
                                        mapping: seq<(string, string)>, i: nat)
    requires i < |mapping| && Copies(fs, dir, templates, mapping[i])
    ensures mapping[i].1 in Creatable(fs, dir, templates, mapping)
    decreases i
  {
    if i > 0 {
      CreatableHas(fs, dir, templates, mapping[1..], i - 1);
    }
  }

  /** Every created state file holds its template. */
  lemma InitCopiedFiles(fs: Fs, d: Path, templates: map<string, string>)
    ensures var (fs3, created) := CopyTemplates(fs, d, templates, TemplateMapping);
      forall t | t in created ::
        TemplateOf(t) in templates && d + [t] in fs3.files && fs3.files[d + [t]] == templates[TemplateOf(t)]
  {
    var (fs3, created) := CopyTemplates(fs, d, templates, TemplateMapping);
    var m := TemplateMapping;
    CreatableOfMapping(fs, d, templates);
    forall t | t in created
      ensures TemplateOf(t) in templates && d + [t] in fs3.files && fs3.files[d + [t]] == templates[TemplateOf(t)]
    {
      CreatedIfMember(fs, d, templates, GuardrailsFile, t);
      CreatedIfMember(fs, d, templates, ActivityLogFile, t);
      CreatedIfMember(fs, d, templates, ErrorsLogFile, t);
      var i := if t == GuardrailsFile then 0 else if t == ActivityLogFile then 1 else 2;
      assert m[i] == (TemplateOf(t), t);
      assert Copies(fs, d, templates, m[i]);
    }
  }

  /** Whether `init` creates state file `t`, judged on the state before copying. */
  function CreatedIf(fs: Fs, d: Path, templates: map<string, string>, t: string): seq<string>
  {
    if !Exists(fs, d + [t]) && TemplateOf(t) in templates then [t] else []
  }

  lemma CreatableOfMapping(fs: Fs, d: Path, templates: map<string, string>)
    ensures Creatable(fs, d, templates, TemplateMapping)
      == CreatedIf(fs, d, templates, GuardrailsFile) + CreatedIf(fs, d, templates, ActivityLogFile)
         + CreatedIf(fs, d, templates, ErrorsLogFile)
  {
    var m := TemplateMapping;
    assert m[1..][1..][1..] == [];
    assert Creatable(fs, d, templates, m[1..][1..]) == CreatedIf(fs, d, templates, ErrorsLogFile);
    assert Creatable(fs, d, templates, m[1..])
      == CreatedIf(fs, d, templates, ActivityLogFile) + CreatedIf(fs, d, templates, ErrorsLogFile);
  }

  /** A state file's path is never one of the directories `init` creates. */
  lemma PrefixesOfRuns(d: Path, t: string)
    requires IsStateFile(t)
    ensures d + [t] !in Prefixes(d) && d + [t] !in Prefixes(d + [RunsDirName])
  {
    var runs := d + [RunsDirName];
    forall k | 1 <= k <= |runs|
      ensures runs[..k] != d + [t] && (k <= |d| ==> d[..k] != d + [t])
    {
      if k <= |d| {
        assert |runs[..k]| == k && |d[..k]| == k;
      } else {
        assert runs[..k][|d|] != (d + [t])[|d|];
      }
    }
  }

  /** After a successful `init` nothing blocks its directories and both exist with all their parents. */
  lemma InitLeavesDirectories(fs: Fs, root: Option<Path>, cwd: Path, templates: map<string, string>)
    requires Init(fs, root, cwd, templates).Done?
    ensures var d := GetRalphDir(root, cwd);
      var fs1 := Init(fs, root, cwd, templates).fs;
      && !BlockedBy(fs1, d) && !BlockedBy(fs1, d + [RunsDirName])
      && Prefixes(d + [RunsDirName]) <= fs1.dirs
  {
    var d := GetRalphDir(root, cwd);
    var runs := d + [RunsDirName];
    var r1 := Init(fs, root, cwd, templates);
    forall q | q in Prefixes(runs)
      ensures q !in r1.fs.files
    {
      if q in r1.fs.files && q !in fs.files {
        var t :| t in r1.value.created && q == d + [t];
        PrefixesOfRuns(d, t);
      }
    }
    PrefixesNest(d);
  }

  /** After a successful `init` every state file whose template is bundled exists. */
  lemma InitProvidesStateFiles(fs: Fs, root: Option<Path>, cwd: Path, templates: map<string, string>)
    requires Init(fs, root, cwd, templates).Done?
    ensures forall t | IsStateFile(t) && TemplateOf(t) in templates ::
      Exists(Init(fs, root, cwd, templates).fs, GetRalphDir(root, cwd) + [t])
  {
    var d := GetRalphDir(root, cwd);
    var r1 := Init(fs, root, cwd, templates);
    forall t | IsStateFile(t) && TemplateOf(t) in templates
      ensures Exists(r1.fs, d + [t])
    {
      if !Exists(fs, d + [t]) {
        assert t in r1.value.created;
      }
    }
  }

  lemma NoMembersEmpty(s: seq<string>)
    ensures (forall x :: x !in s) ==> s == []
  {
    if |s| > 0 {
      assert s[0] in s;
    }
  }

  /** On a state where the directories and every state file with a template already exist, `init` does nothing. */
  lemma InitOnInitialised(fs: Fs, root: Option<Path>, cwd: Path, templates: map<string, string>)
    requires var d := GetRalphDir(root, cwd);
      && !BlockedBy(fs, d) && !BlockedBy(fs, d + [RunsDirName])
      && Prefixes(d + [RunsDirName]) <= fs.dirs
      && forall t | IsStateFile(t) && TemplateOf(t) in templates :: Exists(fs, d + [t])
    ensures Init(fs, root, cwd, templates) == Done(fs, InitReport(GetRalphDir(root, cwd), []))
  {
    var d := GetRalphDir(root, cwd);
    var r := Init(fs, root, cwd, templates);
    assert forall t :: t !in r.value.created;
    NoMembersEmpty(r.value.created);
    SameDirs(r.fs.dirs, fs.dirs, Prefixes(d + [RunsDirName]));
    SameFiles(r.fs.files, fs.files);
  }

  /** Adding directories that are already there changes no directory. */
  lemma SameDirs(after: set<Path>, before: set<Path>, made: set<Path>)
    requires made <= before
    requires forall q :: q in after <==> q in before || q in made
    ensures after == before
  {
  }

  /** Files that keep every old entry and gain no path are the old files. */
  lemma SameFiles(after: map<Path, string>, before: map<Path, string>)
    requires forall p | p in before :: p in after && after[p] == before[p]
    requires forall p | p in after :: p in before
    ensures after == before
  {
  }

  /**
    `init` is idempotent: once it has succeeded, running it again succeeds,
    changes no file and no directory, and reports nothing created, which
    selects the "already exists" message.
   */
  lemma InitIdempotent(fs: Fs, root: Option<Path>, cwd: Path, templates: map<string, string>)
    requires Init(fs, root, cwd, templates).Done?
    ensures var r1 := Init(fs, root, cwd, templates);
      var r2 := Init(r1.fs, root, cwd, templates);
      && r2 == Done(r1.fs, InitReport(GetRalphDir(root, cwd), []))
      && !r2.value.FreshlyInitialized()
  {
    InitLeavesDirectories(fs, root, cwd, templates);
    InitProvidesStateFiles(fs, root, cwd, templates);
    InitOnInitialised(Init(fs, root, cwd, templates).fs, root, cwd, templates);
  }
}

=== FILE: store.dfy ===
/**
  The project state store: an abstract filesystem, the `.ralph` directory
  layout, and the reply every file-touching command gives back (the state
  after the command and its exit code).
 */
module FileStore {
  import opened Optional

  /** A path is the list of its components; `root / name` appends one. */
  type Path = seq<string>

  const RalphDirName: string := ".ralph"
  const GuardrailsFile: string := "guardrails.md"
  const ActivityLogFile: string := "activity.log"
  const ErrorsLogFile: string := "errors.log"
  const RunsDirName: string := "runs"

  /** Regular files with their text, and the set of directories. */
  datatype Fs = Fs(files: map<Path, string>, dirs: set<Path>)

  /** `Path.exists()`: something, file or directory, is at `p`. */
  predicate Exists(fs: Fs, p: Path)
  {
    p in fs.files || p in fs.dirs
  }

  datatype Error =
    | NotInitialized(path: Path)   // the command's target file is absent: run init first
    | IsADirectory(path: Path)     // the target exists but is a directory, so it cannot be read or appended to
    | Blocked(path: Path)          // a regular file sits where a directory has to be created

  /**
    What a command leaves behind: the filesystem afterwards and either its
    value or the error it stopped with. Every error exits with status 1.
   */
  datatype Reply<+T> = Done(fs: Fs, value: T) | Failed(fs: Fs, error: Error) {

    function ExitCode(): int
    {
      if Done? then 0 else 1
    }
  }

  /** `get_ralph_dir`: the `.ralph` directory under `root`, or under the working directory when no root is given. */
  function GetRalphDir(root: Option<Path>, cwd: Path): (d: Path)
    ensures |d| > 0 && d[|d| - 1] == RalphDirName
    ensures d[..|d| - 1] == (if root.Some? then root.value else cwd)
  {
    root.ValueOr(cwd) + [RalphDirName]
  }

  /** The non-empty prefixes of `p`: every directory `mkdir(parents=True)` makes sure of. */
  function Prefixes(p: Path): set<Path>
  {
    set k | 1 <= k <= |p| :: p[..k]
  }

  /** Some non-empty prefix of `p`, `p` itself included, is a regular file. */
  predicate BlockedBy(fs: Fs, p: Path)
  {
    exists k | 1 <= k <= |p| :: p[..k] in fs.files
  }

  /**
    `p.mkdir(parents=True, exist_ok=True)`: succeeds when `p` already is a
    directory, creates it and its missing parents otherwise, and raises when
    a regular file occupies `p` or one of its ancestors.
   */
  function MakeDirs(fs: Fs, p: Path): (r: Reply<()>)
    ensures r.Failed? <==> exists q :: q in Prefixes(p) && q in fs.files
    ensures r.Failed? ==> r.fs == fs && r.error == Blocked(p)
    ensures r.Done? ==> r.fs.files == fs.files && (|p| > 0 ==> p in r.fs.dirs)
    ensures r.Done? ==> forall q :: q in r.fs.dirs <==> q in fs.dirs || q in Prefixes(p)
  {
    if BlockedBy(fs, p) then Failed(fs, Blocked(p))
    else
      assert p[..|p|] == p;
      assert |p| > 0 ==> p[..|p|] in Prefixes(p);
      Done(Fs(fs.files, fs.dirs + Prefixes(p)), ())
  }

  /**
    After a successful `mkdir` the path and its parents exist, and what
    existed before still exists: existence only grows, and `exists()` is
    then true for the new directories exactly as for files.
   */
  lemma MakeDirsExists(fs: Fs, p: Path, q: Path)
    requires MakeDirs(fs, p).Done?
    ensures Exists(MakeDirs(fs, p).fs, q) <==> Exists(fs, q) || q in Prefixes(p)
    ensures |p| > 0 ==> Exists(MakeDirs(fs, p).fs, p)
  {
  }

  /** No carriage return occurs in `s`. */
  predicate NoCarriageReturn(s: string)
  {
    forall i | 0 <= i < |s| :: s[i] != '\r'
  }

  /**
    Python's universal-newline reading: each `"\r\n"` and each lone `'\r'`
    becomes one `'\n'`; every other character is kept.
   */
  function UniversalNewlines(s: string): (r: string)
    ensures NoCarriageReturn(r)
    ensures NoCarriageReturn(s) ==> r == s
    ensures |r| <= |s|
    decreases |s|
  {
    if |s| == 0 then ""
    else if s[0] == '\r' then "\n" + UniversalNewlines(if |s| > 1 && s[1] == '\n' then s[2..] else s[1..])
    else
      var rest := UniversalNewlines(s[1..]);
      assert NoCarriageReturn(s) ==> rest == s[1..];
      [s[0]] + rest
  }

  /** A character other than a carriage return is read as itself. */
  lemma ReadsAsItself(c: char, t: string)
    requires c != '\r'
    ensures UniversalNewlines([c] + t) == [c] + UniversalNewlines(t)
  {
    assert ([c] + t)[1..] == t;
  }

  /** A line of text without carriage returns, then a break read as one newline, reads as that text and newline. */
  lemma {:induction false} ReadsAfterPlainText(a: string, brk: string, b: string)
    requires NoCarriageReturn(a)
    requires UniversalNewlines(brk + b) == "\n" + UniversalNewlines(b)
    ensures UniversalNewlines(a + brk + b) == a + "\n" + UniversalNewlines(b)
    decreases |a|
  {
    if |a| == 0 {
      assert a + brk + b == brk + b;
    } else {
      var u := UniversalNewlines(b);
      assert NoCarriageReturn(a[1..]);
      calc {
        UniversalNewlines(a + brk + b);
        { SplitFirst(a, brk, b); }
        UniversalNewlines([a[0]] + (a[1..] + brk + b));
        { ReadsAsItself(a[0], a[1..] + brk + b); }
        [a[0]] + UniversalNewlines(a[1..] + brk + b);
        { ReadsAfterPlainText(a[1..], brk, b); }
        [a[0]] + (a[1..] + "\n" + u);
        { SplitFirst(a, "\n", u); }
        a + "\n" + u;
      }
    }
  }

  /** Text followed by two more pieces is its first character followed by the rest of it and the pieces. */
  lemma SplitFirst(a: string, x: string, y: string)
    requires |a| > 0
    ensures a + x + y == [a[0]] + (a[1..] + x + y)
  {
    assert a == [a[0]] + a[1..];
  }

  /** A `"\r\n"` after text without carriage returns reads as one newline. */
  lemma CrLfReadsAsNewline(a: string, b: string)
    requires NoCarriageReturn(a)
    ensures UniversalNewlines(a + "\r\n" + b) == a + "\n" + UniversalNewlines(b)
  {
    var s := "\r\n" + b;
    assert s[0] == '\r' && s[1] == '\n' && s[2..] == b;
    ReadsAfterPlainText(a, "\r\n", b);
  }

  /** A lone `'\r'` after text without carriage returns reads as one newline. */
  lemma CrReadsAsNewline(a: string, b: string)
    requires NoCarriageReturn(a)
    requires |b| == 0 || b[0] != '\n'
    ensures UniversalNewlines(a + "\r" + b) == a + "\n" + UniversalNewlines(b)
  {
    var s := "\r" + b;
    assert s[0] == '\r' && s[1..] == b;
    assert |s| > 1 ==> s[1] == b[0];
    ReadsAfterPlainText(a, "\r", b);
  }

  /**
    `read_text(encoding="utf-8")` on a path that `Exists`: a directory there
    cannot be read; a file reads in universal-newline mode.
   */
  function ReadText(fs: Fs, p: Path): (r: Reply<string>)
    requires Exists(fs, p)
    ensures r.fs == fs
    ensures r.Done? <==> p in fs.files
    ensures r.Done? ==> r.value == UniversalNewlines(fs.files[p]) && NoCarriageReturn(r.value)
    ensures r.Done? && NoCarriageReturn(fs.files[p]) ==> r.value == fs.files[p]
    ensures r.Failed? ==> r.error == IsADirectory(p)
  {
    if p in fs.files then Done(fs, UniversalNewlines(fs.files[p])) else Failed(fs, IsADirectory(p))
  }
}

=== FILE: text.dfy ===
/**
  Text handling: on log text, `str.splitlines()` restricted to the `'\n'`
  terminator and `"\n".join(...)`, with the laws that relate the two; on
  prompt answers, `str.strip()` over Python's whitespace characters.
 */
module Text {
  import opened Optional

  /** No newline character occurs in `s`. */
  predicate OneLine(s: string)
  {
    forall i | 0 <= i < |s| :: s[i] != '\n'
  }

  /** Every element of `lines` is a single line. */
  predicate AllOneLine(lines: seq<string>)
  {
    forall i | 0 <= i < |lines| :: OneLine(lines[i])
  }

  /** Cuts `s` at its first newline into the line before it and the text after it; None when `s` has no newline. */
  function TakeLine(s: string): (r: Option<(string, string)>)
    ensures r.None? <==> OneLine(s)
    ensures r.Some? ==> OneLine(r.value.0) && s == r.value.0 + "\n" + r.value.1
  {
    if |s| == 0 then None
    else if s[0] == '\n' then Some(([], s[1..]))
    else
      match TakeLine(s[1..])
      case None => None
      case Some((line, rest)) => Some(([s[0]] + line, rest))
  }

  /**
    `s.splitlines()` for `'\n'`: one element per terminated line, plus the
    trailing unterminated text when it is non-empty.
   */
  function SplitLines(s: string): (lines: seq<string>)
    ensures |lines| == 0 <==> |s| == 0
    decreases |s|
  {
    if |s| == 0 then []
    else
      match TakeLine(s)
      case None => [s]
      case Some((line, rest)) => [line] + SplitLines(rest)
  }

  /** No line that `splitlines` yields holds a newline. */
  lemma {:induction false} SplitLinesOneLine(s: string)
    ensures AllOneLine(SplitLines(s))
    decreases |s|
  {
    if |s| > 0 {
      match TakeLine(s)
      case None =>
      case Some((line, rest)) =>
        SplitLinesOneLine(rest);
        var lines := SplitLines(s);
        assert lines == [line] + SplitLines(rest);
        forall i | 0 <= i < |lines| ensures OneLine(lines[i]) {
          if i > 0 { assert lines[i] == SplitLines(rest)[i - 1]; }
        }
    }
  }

  /** The number of newline characters in `s`. */
  function Newlines(s: string): nat
    decreases |s|
  {
    if |s| == 0 then 0 else (if s[0] == '\n' then 1 else 0) + Newlines(s[1..])
  }

  lemma {:induction false} NewlinesAppend(a: string, b: string)
    ensures Newlines(a + b) == Newlines(a) + Newlines(b)
    decreases |a|
  {
    if |a| > 0 {
      assert (a + b)[1..] == a[1..] + b;
      NewlinesAppend(a[1..], b);
    } else {
      assert a + b == b;
    }
  }

  lemma {:induction false} NewlinesOneLine(s: string)
    ensures OneLine(s) ==> Newlines(s) == 0
    decreases |s|
  {
    if |s| > 0 {
      NewlinesOneLine(s[1..]);
    }
  }

  /**
    `"\n".join(lines)`: single lines joined this way are separated by
    exactly one newline each, so the text holds one newline fewer than
    there are lines.
   */
  function Join(lines: seq<string>): (r: string)
    ensures AllOneLine(lines) ==> Newlines(r) == (if |lines| == 0 then 0 else |lines| - 1)
    decreases |lines|
  {
    if |lines| == 0 then ""
    else if |lines| == 1 then
      NewlinesOneLine(lines[0]);
      lines[0]
    else
      var rest := Join(lines[1..]);
      assert AllOneLine(lines) ==> AllOneLine(lines[1..]);
      NewlinesAppend(lines[0] + "\n", rest);
      NewlinesAppend(lines[0], "\n");
      assert Newlines("\n") == 1;
      NewlinesOneLine(lines[0]);
      lines[0] + "\n" + rest
  }

  /** Joined lines split at any inner position: the two joins around one newline. */
  lemma {:induction false} JoinAt(lines: seq<string>, k: nat)
    requires 0 < k < |lines|
    ensures Join(lines) == Join(lines[..k]) + "\n" + Join(lines[k..])
    decreases k
  {
    if k == 1 {
      assert lines[..1] == [lines[0]];
    } else {
      var head, a, b := lines[0], lines[..k][1..], lines[k..];
      JoinAt(lines[1..], k - 1);
      assert lines[1..][..k - 1] == a;
      assert lines[1..][k - 1..] == b;
      calc {
        Join(lines);
        { JoinHead(lines); }
        head + "\n" + Join(lines[1..]);
        head + "\n" + (Join(a) + "\n" + Join(b));
        { AssociateLines(head, Join(a), Join(b)); }
        (head + "\n" + Join(a)) + "\n" + Join(b);
        { JoinHead(lines[..k]); }
        Join(lines[..k]) + "\n" + Join(b);
      }
    }
  }

  /** Joining two or more lines puts the first, then a newline, then the rest joined. */
  lemma JoinHead(lines: seq<string>)
    requires |lines| >= 2
    ensures Join(lines) == lines[0] + "\n" + Join(lines[1..])
  {
  }

  lemma AssociateLines(a: string, b: string, c: string)
    ensures a + "\n" + (b + "\n" + c) == (a + "\n" + b) + "\n" + c
  {
  }

  // ---------------------------------------------------------------------------
  // str.strip()
  // ---------------------------------------------------------------------------

  /**
    The characters Python's `str.isspace()` accepts, which `str.strip()`
    removes: tab to carriage return, the file, group, record and unit
    separators, space, next line, no-break space, and the Unicode space
    separators, line separator and paragraph separator.
   */
  predicate IsSpace(c: char)
  {
    '\t' <= c <= '\r' || '\U{1C}' <= c <= ' ' || c == '\U{85}' || c == '\U{A0}' || c == '\U{1680}'
    || '\U{2000}' <= c <= '\U{200A}' || c == '\U{2028}' || c == '\U{2029}' || c == '\U{202F}'
    || c == '\U{205F}' || c == '\U{3000}'
  }

  predicate AllSpace(s: string)
  {
    forall i | 0 <= i < |s| :: IsSpace(s[i])
  }

  /** Neither end of `s` is whitespace. */
  predicate Trimmed(s: string)
  {
    |s| == 0 || (!IsSpace(s[0]) && !IsSpace(s[|s| - 1]))
  }

  /** The length of the leading whitespace of `s`. */
  function LeadingSpace(s: string): (k: nat)
    ensures k <= |s| && AllSpace(s[..k])
    ensures k < |s| ==> !IsSpace(s[k])
    decreases |s|
  {
    if |s| == 0 || !IsSpace(s[0]) then 0
    else
      var k := LeadingSpace(s[1..]);
      assert s[..k + 1] == [s[0]] + s[1..][..k];
      k + 1
  }

  /** Where the trailing whitespace of `s` starts. */
  function TrailingSpace(s: string): (k: nat)
    ensures k <= |s| && AllSpace(s[k..])
    ensures k > 0 ==> !IsSpace(s[k - 1])
    decreases |s|
  {
    if |s| == 0 || !IsSpace(s[|s| - 1]) then |s|
    else
      var k := TrailingSpace(s[..|s| - 1]);
      TrailingSpaceGrows(s, s[..|s| - 1], k);
      k
  }

  /** Whitespace trailing `init` still trails `init` followed by one more whitespace character. */
  lemma TrailingSpaceGrows(s: string, init: string, k: nat)
    requires |s| > 0 && init == s[..|s| - 1] && IsSpace(s[|s| - 1])
    requires k <= |init| && AllSpace(init[k..]) && (k > 0 ==> !IsSpace(init[k - 1]))
    ensures AllSpace(s[k..]) && (k > 0 ==> !IsSpace(s[k - 1]))
  {
    assert s[k..] == init[k..] + [s[|s| - 1]];
    AllSpaceConcat(init[k..], [s[|s| - 1]]);
  }

  /**
    `s.strip()`: the text without its leading and trailing whitespace. The
    result has no whitespace at either end, is empty exactly when `s` is all
    whitespace, and is `s` itself when `s` has none at its ends.
   */
  function Strip(s: string): (r: string)
    ensures Trimmed(r)
    ensures r == "" <==> AllSpace(s)
    ensures Trimmed(s) ==> r == s
  {
    var t := s[LeadingSpace(s)..];
    StripTrimmed(s);
    StripEmpty(s);
    StripKeeps(s);
    t[..TrailingSpace(t)]
  }

  lemma StripTrimmed(s: string)
    ensures var t := s[LeadingSpace(s)..]; Trimmed(t[..TrailingSpace(t)])
  {
    var i := LeadingSpace(s);
    var t := s[i..];
    var j := TrailingSpace(t);
    if j > 0 {
      assert t[..j][0] == s[i];
      assert t[..j][j - 1] == t[j - 1];
    }
  }

  lemma StripEmpty(s: string)
    ensures var t := s[LeadingSpace(s)..]; t[..TrailingSpace(t)] == "" <==> AllSpace(s)
  {
    var i := LeadingSpace(s);
    var t := s[i..];
    var j := TrailingSpace(t);
    TrailingSpaceOfAllSpace(t);
    EmptyIffAllSpace(s, i, t, j);
  }

  /**
    Text whose first `i` characters are whitespace is all whitespace exactly
    when the rest, `t`, keeps nothing before its trailing whitespace at `j`.
   */
  lemma EmptyIffAllSpace(s: string, i: nat, t: string, j: nat)
    requires i <= |s| && AllSpace(s[..i]) && t == s[i..]
    requires j <= |t| && AllSpace(t[j..]) && (AllSpace(t) ==> j == 0)
    ensures t[..j] == "" <==> AllSpace(s)
  {
    assert s == s[..i] + t;
    AllSpaceConcat(s[..i], t);
    assert t[0..] == t;
  }

  lemma AllSpaceConcat(a: string, b: string)
    ensures AllSpace(a + b) <==> AllSpace(a) && AllSpace(b)
  {
    var s := a + b;
    assert forall k | 0 <= k < |a| :: s[k] == a[k];
    assert forall k | 0 <= k < |b| :: s[|a| + k] == b[k];
  }

  /** Text that is all whitespace is all trailing whitespace. */
  lemma {:induction false} TrailingSpaceOfAllSpace(t: string)
    ensures AllSpace(t) ==> TrailingSpace(t) == 0
    decreases |t|
  {
    if |t| > 0 {
      var init := t[..|t| - 1];
      assert t == init + [t[|t| - 1]];
      AllSpaceConcat(init, [t[|t| - 1]]);
      TrailingSpaceOfAllSpace(init);
    }
  }

  lemma StripKeeps(s: string)
    ensures var t := s[LeadingSpace(s)..]; Trimmed(s) ==> t[..TrailingSpace(t)] == s
  {
    var i := LeadingSpace(s);
    var t := s[i..];
    var j := TrailingSpace(t);
    if Trimmed(s) && |s| > 0 {
      LeadingSpaceIs(s, 0);
      assert t == s;
      TrailingSpaceIs(s, |s|);
    }
  }

  /** The leading whitespace is determined by where the first non-space character sits. */
  lemma {:induction false} LeadingSpaceIs(s: string, k: nat)
    requires k <= |s| && AllSpace(s[..k]) && (k < |s| ==> !IsSpace(s[k]))
    ensures LeadingSpace(s) == k
    decreases k
  {
    if k > 0 {
      assert s[..k][0] == s[0];
      assert s[1..][..k - 1] == s[..k][1..];
      LeadingSpaceIs(s[1..], k - 1);
    }
  }

  /** The trailing whitespace is determined by where the last non-space character sits. */
  lemma {:induction false} TrailingSpaceIs(s: string, k: nat)
    requires k <= |s| && AllSpace(s[k..]) && (k > 0 ==> !IsSpace(s[k - 1]))
    ensures TrailingSpace(s) == k
    decreases |s| - k
  {
    if k < |s| {
      assert s[k..][|s| - 1 - k] == s[|s| - 1];
      assert s[..|s| - 1][k..] == s[k..][..|s| - 1 - k];
      TrailingSpaceIs(s[..|s| - 1], k);
    }
  }

  /** Stripping removes exactly the whitespace padding around a trimmed core. */
  lemma StripPadding(pre: string, t: string, post: string)
    requires AllSpace(pre) && AllSpace(post) && Trimmed(t)
    ensures Strip(pre + t + post) == t
  {
    var s := pre + t + post;
    if |t| == 0 {
      assert s == pre + post;
      assert AllSpace(s) by {
        forall i | 0 <= i < |s| ensures IsSpace(s[i]) {
          if i < |pre| { assert s[i] == pre[i]; } else { assert s[i] == post[i - |pre|]; }
        }
      }
    } else {
      assert s[..|pre|] == pre && s[|pre|] == t[0];
      LeadingSpaceIs(s, |pre|);
      var u := s[|pre|..];
      assert u == t + post;
      assert u[|t|..] == post && u[|t| - 1] == t[|t| - 1];
      TrailingSpaceIs(u, |t|);
      assert u[..|t|] == t;
    }
  }

  /** A newline after a single line is found by `TakeLine`. */
  lemma {:induction false} TakeLineAfter(line: string, rest: string)
    requires OneLine(line)
    ensures TakeLine(line + "\n" + rest) == Some((line, rest))
  {
    var s := line + "\n" + rest;
    if |line| == 0 {
      assert s[0] == '\n' && s[1..] == rest;
    } else {
      assert s[0] == line[0] != '\n';
      assert s[1..] == line[1..] + "\n" + rest;
      TakeLineAfter(line[1..], rest);
      assert [s[0]] + line[1..] == line;
    }
  }

  /** `JoinSplitLines` for `line + "\n" + rest`, given it for the non-empty `rest`, whose lines are `lines`. */
  lemma JoinLineBefore(line: string, rest: string, lines: seq<string>)
    requires |rest| > 0 && |lines| > 0
    requires Join(lines) == if rest[|rest| - 1] == '\n' then rest[..|rest| - 1] else rest
    ensures var s := line + "\n" + rest;
      Join([line] + lines) == if s[|s| - 1] == '\n' then s[..|s| - 1] else s
  {
    JoinCons(line, lines);
    DropLastOfAppend(line + "\n", rest);
  }

  /** The last character of `a + b`, and what comes before it, when `b` is not empty. */
  lemma DropLastOfAppend(a: string, b: string)
    requires |b| > 0
    ensures (a + b)[|a + b| - 1] == b[|b| - 1]
    ensures (a + b)[..|a + b| - 1] == a + b[..|b| - 1]
  {
  }

  /** Joining a list with a first line puts a newline after that line. */
  lemma {:induction false} JoinCons(line: string, lines: seq<string>)
    requires |lines| > 0
    ensures Join([line] + lines) == line + "\n" + Join(lines)
  {
    assert ([line] + lines)[1..] == lines;
  }

  /**
    Joining split text gives the text back, except for a final newline,
    which `splitlines` treats as a terminator and `join` does not restore.
   */
  lemma {:induction false} JoinSplitLines(s: string)
    ensures Join(SplitLines(s)) == if |s| > 0 && s[|s| - 1] == '\n' then s[..|s| - 1] else s
    decreases |s|
  {
    if |s| == 0 {
    } else {
      match TakeLine(s)
      case None =>
        assert SplitLines(s) == [s];
      case Some((line, rest)) =>
        assert SplitLines(s) == [line] + SplitLines(rest);
        if |rest| == 0 {
          assert SplitLines(s) == [line];
          DropLastOfAppend(line, "\n");
        } else {
          JoinSplitLines(rest);
          JoinLineBefore(line, rest, SplitLines(rest));
        }
    }
  }

  /**
    Splitting joined lines gives the lines back, provided no line holds a
    newline and the last line is not empty (an empty last line would leave
    only a trailing terminator, which `splitlines` drops).
   */
  lemma {:induction false} SplitLinesOfJoin(lines: seq<string>)
    requires AllOneLine(lines)
    requires |lines| > 0 ==> lines[|lines| - 1] != ""
    ensures SplitLines(Join(lines)) == lines
    decreases |lines|
  {
    if |lines| == 0 {
    } else if |lines| == 1 {
      assert TakeLine(lines[0]) == None;
    } else {
      var rest := Join(lines[1..]);
      assert lines == [lines[0]] + lines[1..];
      JoinCons(lines[0], lines[1..]);
      TakeLineAfter(lines[0], rest);
      SplitLinesOfJoin(lines[1..]);
      assert |rest| > 0 by {
        JoinNonEmpty(lines[1..]);
      }
    }
  }

  /** Joined lines whose last line is not empty are non-empty text. */
  lemma {:induction false} JoinNonEmpty(lines: seq<string>)
    requires |lines| > 0 && lines[|lines| - 1] != ""
    ensures |Join(lines)| > 0
    decreases |lines|
  {
    if |lines| > 1 {
      JoinNonEmpty(lines[1..]);
    }
  }

  /** Any suffix of a list of single lines is a list of single lines. */
  lemma AllOneLineSuffix(lines: seq<string>, k: nat)
    requires AllOneLine(lines) && k <= |lines|
    ensures AllOneLine(lines[k..])
  {
    forall i | 0 <= i < |lines| - k
      ensures OneLine(lines[k..][i])
    {
      assert lines[k..][i] == lines[k + i];
    }
  }

  /** `text` ends with `r`, or with `r` followed by one newline. */
  predicate EndsWithLine(text: string, r: string)
  {
    |r| <= |text| && (r == text[|text| - |r|..] || (|r| < |text| && r + "\n" == text[|text| - |r| - 1..]))
  }

  /** The join of the lines from `k` on ends the join of all the lines. */
  lemma JoinSuffix(lines: seq<string>, k: nat)
    requires k <= |lines|
    ensures var j := Join(lines); var r := Join(lines[k..]);
      |r| <= |j| && j[|j| - |r|..] == r
  {
    if k == |lines| {
      assert lines[k..] == [];
    } else if k == 0 {
      assert lines[k..] == lines;
    } else {
      JoinAt(lines, k);
    }
  }

  /** A tail of `s` less its final newline is a tail of `s` up to that newline. */
  lemma EndsWithLineTrimmed(s: string, j: string, r: string)
    requires j == (if |s| > 0 && s[|s| - 1] == '\n' then s[..|s| - 1] else s)
    requires |r| <= |j| && j[|j| - |r|..] == r
    ensures EndsWithLine(s, r)
  {
    if |s| > 0 && s[|s| - 1] == '\n' {
      assert s[|s| - |r| - 1..] == j[|j| - |r|..] + "\n";
    }
  }

  /**
    Joining the lines of `s` from line `k` on gives a tail of `s`: the text
    from the start of line `k` to the end, less the final newline if `s`
    has one.
   */
  lemma JoinTail(s: string, k: nat)
    requires k <= |SplitLines(s)|
    ensures EndsWithLine(s, Join(SplitLines(s)[k..]))
  {
    JoinSplitLines(s);
    JoinSuffix(SplitLines(s), k);
    EndsWithLineTrimmed(s, Join(SplitLines(s)), Join(SplitLines(s)[k..]));
  }
}

=== FILE: views.dfy ===
/**
  The read-only commands: `show-activity` and `show-errors` (a tail view of
  a log) and `show-guardrails` (the whole ledger). None of them writes.
 */
module Views {
  import opened Optional
  import opened FileStore
  import opened Text

  /** The `--lines` default of both log views. */
  const DefaultLines: int := 50

  function Min(a: int, b: int): int
  {
    if a <= b then a else b
  }

  /** Python's normalisation of a slice start `k` for a list of length `len`. */
  function SliceStart(len: nat, k: int): (s: nat)
    ensures s <= len
  {
    if k < 0 then (if len + k < 0 then 0 else len + k)
    else if k > len then len
    else k
  }

  /**
    `lines[-n:]`, slicing as Python does: the last `n` lines for positive
    `n`, every line for `n == 0` (since `-0 == 0`), and all but the first
    `-n` lines for negative `n`.
   */
  function LastLines(lines: seq<string>, n: int): (r: seq<string>)
    ensures |r| <= |lines| && r == lines[|lines| - |r|..]
    ensures n >= 1 ==> |r| == Min(|lines|, n)
    ensures n == 0 ==> r == lines
    ensures n < 0 ==> |r| == |lines| - Min(|lines|, -n)
  {
    lines[SliceStart(|lines|, -n)..]
  }

  /**
    The text a log view displays: the content untouched when it has at most
    `n` lines, otherwise the lines `lines[-n:]` joined with newlines. The
    view is always a tail of the content (less a final newline), and a cut
    to a positive `n` holds exactly `n` lines, that is `n - 1` newlines.
   */
  function TailView(content: string, n: int): (r: string)
    ensures EndsWithLine(content, r)
    ensures n >= 1 && |SplitLines(content)| > n ==> Newlines(r) == n - 1
  {
    var lines := SplitLines(content);
    if |lines| > n then
      var kept := LastLines(lines, n);
      JoinTail(content, |lines| - |kept|);
      SplitLinesOneLine(content);
      AllOneLineSuffix(lines, |lines| - |kept|);
      Join(kept)
    else
      content
  }

  /**
    For a positive window the view is the content itself when it fits, and
    otherwise exactly its last `n` lines, oldest first.
   */
  lemma TailViewWindow(content: string, n: int)
    requires n >= 1
    ensures var lines := SplitLines(content);
      && (|lines| <= n ==> TailView(content, n) == content)
      && (|lines| > n ==> TailView(content, n) == Join(lines[|lines| - n..]))
  {
    var lines, view := SplitLines(content), TailView(content, n);
    WindowLines(content, n, lines, view);
  }

  /** `TailViewWindow` for a log whose lines are `lines` and whose view is `view`. */
  lemma WindowLines(content: string, n: int, lines: seq<string>, view: string)
    requires lines == SplitLines(content) && view == TailView(content, n)
    requires n >= 1
    ensures |lines| <= n ==> view == content
    ensures |lines| > n ==> view == Join(lines[|lines| - n..])
  {
    if |lines| > n {
      TailViewCut(content, n, lines);
    }
  }

  /**
    Reading the view back yields the last `min(L, n)` lines of a log of `L`
    lines, in their original order (when the log does not end in an empty line).
   */
  lemma TailViewReread(content: string, n: int)
    requires n >= 1
    requires var lines := SplitLines(content); |lines| > 0 ==> lines[|lines| - 1] != ""
    ensures var lines := SplitLines(content);
      SplitLines(TailView(content, n)) == lines[|lines| - Min(|lines|, n)..]
  {
    RereadLines(content, n, SplitLines(content), TailView(content, n));
  }

  /** `TailViewReread` for a log whose lines are `lines` and whose view is `view`. */
  lemma RereadLines(content: string, n: int, lines: seq<string>, view: string)
    requires lines == SplitLines(content) && view == TailView(content, n)
    requires n >= 1 && (|lines| > 0 ==> lines[|lines| - 1] != "")
    ensures SplitLines(view) == lines[|lines| - Min(|lines|, n)..]
  {
    if |lines| > n {
      TailViewCut(content, n, lines);
      SplitLinesOneLine(content);
      RereadJoined(view, lines, |lines| - n);
      assert Min(|lines|, n) == n;
    } else {
      RereadWhole(content, n);
      assert Min(|lines|, n) == |lines|;
      assert lines[0..] == lines;
    }
  }

  /** Text that is the join of the lines from `k` on splits back into those lines. */
  lemma RereadJoined(view: string, lines: seq<string>, k: nat)
    requires AllOneLine(lines) && k < |lines| && lines[|lines| - 1] != ""
    requires view == Join(lines[k..])
    ensures SplitLines(view) == lines[k..]
  {
    RereadLast(lines, k);
  }

  /** A view that cuts the log, whose lines are `lines`, is the join of the last `n` lines. */
  lemma TailViewCut(content: string, n: int, lines: seq<string>)
    requires lines == SplitLines(content)
    requires n >= 1 && |lines| > n
    ensures TailView(content, n) == Join(lines[|lines| - n..])
  {
    TailViewJoinsLastLines(content, n);
    JoinLastLines(lines, n);
  }

  lemma TailViewJoinsLastLines(content: string, n: int)
    requires |SplitLines(content)| > n
    ensures TailView(content, n) == Join(LastLines(SplitLines(content), n))
  {
  }

  lemma JoinLastLines(lines: seq<string>, n: int)
    requires n >= 1 && |lines| > n
    ensures Join(LastLines(lines, n)) == Join(lines[|lines| - n..])
  {
    assert LastLines(lines, n) == lines[|lines| - n..];
  }

  /** A view that does not cut the log rereads as the whole log. */
  lemma RereadWhole(content: string, n: int)
    requires |SplitLines(content)| <= n
    ensures SplitLines(TailView(content, n)) == SplitLines(content)
  {
  }

  /** The lines from `k` on, joined and split again, are those lines. */
  lemma RereadLast(lines: seq<string>, k: nat)
    requires AllOneLine(lines) && k < |lines| && lines[|lines| - 1] != ""
    ensures SplitLines(Join(lines[k..])) == lines[k..]
  {
    AllOneLineSuffix(lines, k);
    assert lines[k..][|lines| - k - 1] == lines[|lines| - 1];
    SplitLinesOfJoin(lines[k..]);
  }

  /**
    With `n == 0` a non-empty log is shown in full, and a negative `n`
    drops the first `-n` lines instead of keeping the last ones.
   */
  lemma TailViewNonPositive(content: string, n: int)
    requires n <= 0
    ensures var lines := SplitLines(content);
      && (n == 0 && |lines| > 0 ==> TailView(content, n) == Join(lines))
      && (n < 0 ==> TailView(content, n) == Join(lines[Min(|lines|, -n)..]))
  {
  }

  /** A 50-line view of a 120-line log keeps lines 71 to 120. */
  lemma TailViewExample(content: string)
    requires |SplitLines(content)| == 120
    ensures TailView(content, DefaultLines) == Join(SplitLines(content)[70..])
  {
  }

  /** The shared body of `show-activity` and `show-errors` for the log named `file`. */
  function ShowLog(fs: Fs, root: Option<Path>, cwd: Path, file: string, n: int): (r: Reply<string>)
    ensures r.fs == fs
    ensures var p := GetRalphDir(root, cwd) + [file];
      && (r.Failed? && r.error.NotInitialized? <==> !Exists(fs, p))
      && (r.Done? <==> p in fs.files)
      && (r.Done? ==> r.value == TailView(UniversalNewlines(fs.files[p]), n))
  {
    var p := GetRalphDir(root, cwd) + [file];
    if !Exists(fs, p) then Failed(fs, NotInitialized(p))
    else
      match ReadText(fs, p)
      case Failed(_, e) => Failed(fs, e)
      case Done(_, content) => Done(fs, TailView(content, n))
  }

  /** `show-activity`: fails with exit 1 before init; never writes. */
  function ShowActivity(fs: Fs, root: Option<Path>, cwd: Path, n: int): (r: Reply<string>)
    ensures r.fs == fs
    ensures var p := GetRalphDir(root, cwd) + [ActivityLogFile];
      && (!Exists(fs, p) <==> r == Failed(fs, NotInitialized(p)))
      && (r.ExitCode() == 0 <==> p in fs.files)
      && (r.Done? ==> r.value == TailView(UniversalNewlines(fs.files[p]), n))
  {
    ShowLog(fs, root, cwd, ActivityLogFile, n)
  }

  /** `show-errors`: fails with exit 1 before init; never writes. */
  function ShowErrors(fs: Fs, root: Option<Path>, cwd: Path, n: int): (r: Reply<string>)
    ensures r.fs == fs
    ensures var p := GetRalphDir(root, cwd) + [ErrorsLogFile];
      && (!Exists(fs, p) <==> r == Failed(fs, NotInitialized(p)))
      && (r.ExitCode() == 0 <==> p in fs.files)
      && (r.Done? ==> r.value == TailView(UniversalNewlines(fs.files[p]), n))
  {
    ShowLog(fs, root, cwd, ErrorsLogFile, n)
  }

  /** `show-guardrails`: the whole ledger, no tail cut; fails with exit 1 before init. */
  function ShowGuardrails(fs: Fs, root: Option<Path>, cwd: Path): (r: Reply<string>)
    ensures r.fs == fs
    ensures var p := GetRalphDir(root, cwd) + [GuardrailsFile];
      && (!Exists(fs, p) <==> r == Failed(fs, NotInitialized(p)))
      && (r.ExitCode() == 0 <==> p in fs.files)
      && (r.Done? ==> r.value == UniversalNewlines(fs.files[p]))
  {
    var p := GetRalphDir(root, cwd) + [GuardrailsFile];
    if !Exists(fs, p) then Failed(fs, NotInitialized(p)) else ReadText(fs, p)
  }
}
